=== FILE: README.md ===
# voco, modelled in Dafny

voco is a desktop voice-dictation app with two parts. The Electron desktop
app shows a floating recording island, captures microphone audio, sends it
for transcription, and keeps a history and a list of prompt presets in a
local SQLite database. A small HTTP backend answers `POST /transcribe` by
running a speech model.

This project models the behaviour of that core as pure Dafny functions over
immutable data, and proves properties of the model. Anything the program
does not control enters as an input or an event:

- Timers become events: the island's one-second tick, the 1.5 s simulated
  transcription and the 2 s auto-close.
- The microphone and the encoder become a start outcome and chunk events.
- The network is the reply that was delivered, or the failure of `fetch`.
- The speech model is the answer it gives.
- For the database, generated ids and creation times are inputs, and an ORM
  rejection is `None`.

Modules (one per file):

- `Common`: optional values, thrown values, bytes.
- `Text`: `trim`, ASCII lower-casing, `includes`, truncation with `...`, decimal rendering.
- `Seqs`: order-preserving filter and chunk concatenation.
- `Grouping`: grouping into an insertion-ordered `Map`.
- `Calendar`: calendar days, "yesterday", and the history's date-group label.
- `Island`: the recording island's state machine. It also holds a variant whose timers are cancelled on every show and hide (see Findings).
- `Recorder`: the audio recorder hook. It also holds a variant whose start first stops the encoder and stream it replaces (see Findings).
- `Wire`, `Server`, `Client`, `EndToEnd`: the `/transcribe` exchange, the backend handler, `transcribeAudio`, and the two composed.
- `History`: the history window and its items.
- `Entities`, `Presets`, `PresetFlow`: the preset card, form and window, and a form submission through to the database.
- `Store`: the main process's `db:*` handlers over a map-per-table database.
- `Seed`: the built-in preset seed.

Facts about the program that the model keeps:

- The island has an `Error` state that nothing ever enters (`Island.NeverError`).
- Transcription on the island is simulated with a fixed sample text.
- Empty audio is sent to the backend, which answers 400.
- The island's timers are not cancelled, so they can leak across sessions.
- A second `startRecording` while recording leaves the first encoder and stream running.
- When `start(100)` throws, the encoder that threw stays the current one; during a recording this leaves `isRecording` set with no running current encoder.
- `startRecording` awaits the device request, so a cancel during the permission prompt is undone when the request is granted.
- When the microphone goes away during a recording, the hook keeps reporting recording and a later stop resolves to null, dropping the buffered audio.

## Model

| member | source | states |
|---|---|---|
| Common.MessageOr | apps/backend/src/index.ts:53 | a thrown `Error` yields its message, even an empty one; any other thrown value yields the fallback |
| Text.Trim | apps/desktop/src/renderer/src/components/presets/preset-form.tsx:21-22 | the result has no white space at either end and is the slice of the input left after cutting only white space from both ends |
| Text.TrimmedIsFixed | apps/desktop/src/renderer/src/components/presets/preset-form.tsx:22 | trimming a string without white space at its ends returns it unchanged |
| Text.TrimIdempotent | apps/desktop/src/renderer/src/components/presets/preset-form.tsx:22 | trimming twice is trimming once |
| Text.TrimEmptyIffBlank | apps/desktop/src/renderer/src/components/history/history-window.tsx:47 | `!s.trim()` holds exactly when every character of `s` is white space |
| Text.Lower | apps/desktop/src/renderer/src/components/history/history-window.tsx:48-49 | lower-casing keeps the length and maps each character on its own |
| Text.ContainsIffOccurs | apps/desktop/src/renderer/src/components/history/history-window.tsx:49 | the left-to-right `includes` scan succeeds exactly when the needle occurs at some position of the text |
| Text.TruncateShape | apps/desktop/src/renderer/src/components/history/history-item.tsx:55 | a text within the limit is kept; a longer one becomes its first `limit` characters followed by `...` |
| Text.TruncateIdempotent | apps/desktop/src/renderer/src/components/history/history-item.tsx:55 | truncating a truncated text changes nothing |
| Text.Decimal | apps/desktop/src/renderer/src/components/island/recording-island.tsx:44 | the rendering of a number is all digits and has no leading zero; below 10 it has one digit, from 10 to 99 two |
| Text.DecimalRoundTrip | apps/desktop/src/renderer/src/components/island/recording-island.tsx:44 | reading a rendered number back gives the number |
| Seqs.Filter | apps/desktop/src/renderer/src/components/history/history-window.tsx:49 | the result is no longer than the input and holds only elements that satisfy the predicate |
| Seqs.SubseqRefl | apps/desktop/src/renderer/src/components/history/history-window.tsx:47 | a list returned unfiltered is trivially an order-preserving selection of itself |
| Seqs.FilterCounts | apps/desktop/src/renderer/src/components/history/history-window.tsx:49 | each element is kept exactly as often as it occurs if it satisfies the predicate, and otherwise not at all |
| Seqs.FilterIsSubseq | apps/desktop/src/renderer/src/components/presets/presets-window.tsx:42 | filtering keeps the original order |
| Seqs.FilterKeepsAll | apps/desktop/src/renderer/src/components/history/history-window.tsx:69 | when every element satisfies the predicate the list is returned unchanged |
| Seqs.FilterSnoc | apps/desktop/src/renderer/src/hooks/use-audio-recorder.ts:49-53 | filtering a list with one more element at the end filters the list and then decides on that element |
| Seqs.FlattenSnoc | apps/desktop/src/renderer/src/hooks/use-audio-recorder.ts:83-85 | a chunk added at the end contributes its bytes at the end of the combined data |
| Seqs.DropEmptyChunks | apps/desktop/src/renderer/src/hooks/use-audio-recorder.ts:50 | leaving out empty chunks does not change the combined data |
| Grouping.Keys | apps/desktop/src/renderer/src/components/history/history-window.tsx:53 | the map's keys, one per group, in iteration order |
| Grouping.Find | apps/desktop/src/renderer/src/components/history/history-window.tsx:57 | the lookup finds the first group with the key, or reports that none has it |
| Grouping.PlaceKeys | apps/desktop/src/renderer/src/components/history/history-window.tsx:57-58 | `set` on an existing key keeps the key order; on a new key it adds the key at the end |
| Grouping.PlaceItems | apps/desktop/src/renderer/src/components/history/history-window.tsx:57-58 | `set(key, [...existing, x])` appends `x` to the group of `key` and to no other group |
| Grouping.GroupByDistinct | apps/desktop/src/renderer/src/components/history/history-window.tsx:52-62 | the grouped map never holds a key twice |
| Grouping.GroupByKeys | apps/desktop/src/renderer/src/components/history/history-window.tsx:52-62 | the map's keys are exactly the keys occurring in the list |
| Grouping.GroupByOrder | apps/desktop/src/renderer/src/components/history/history-window.tsx:52-62 | the groups are ordered by the first appearance of their key in the list |
| Grouping.GroupByItems | apps/desktop/src/renderer/src/components/history/history-window.tsx:52-62 | each group holds exactly the list's items with its key, in list order |
| Grouping.GroupBySpec | apps/desktop/src/renderer/src/components/history/history-window.tsx:52-62 | the four facts above together |
| Grouping.ItemInItsGroupOnly | apps/desktop/src/renderer/src/components/history/history-window.tsx:56-58 | an item only ever appears in the group of its own key |
| Calendar.PrevDay | apps/desktop/src/renderer/src/components/history/utils.ts:4-5 | `setDate(getDate() - 1)` of a valid day is a valid day |
| Calendar.NextDay | apps/desktop/src/renderer/src/components/history/utils.ts:4-5 | the following day of a valid day is a valid day |
| Calendar.PrevNextInverse | apps/desktop/src/renderer/src/components/history/utils.ts:4-5 | the previous and the following day undo each other, across month, year and leap-day boundaries |
| Calendar.ClassifySpec | apps/desktop/src/renderer/src/components/history/utils.ts:9-15 | a day is classed as today exactly when it is today, and as yesterday exactly when the day after it is today |
| Calendar.LabelIgnoresTimeOfDay | apps/desktop/src/renderer/src/components/history/utils.ts:3-7 | the label depends only on the record's calendar day and today's, not on either time of day |
| Calendar.YesterdayLabel | apps/desktop/src/renderer/src/components/history/utils.ts:13-15 | a record from the previous calendar day is labelled "Yesterday" |
| Island.Visibility | apps/desktop/src/renderer/src/components/island/recording-island.tsx:20-28 | showing starts a fresh recording at 0 s with no transcription; hiding forces idle; the effect does nothing when the prop is unchanged |
| Island.Step | apps/desktop/src/renderer/src/components/island/recording-island.tsx:20-66 | no event enters `error`; only a tick while recording or a fresh show changes the duration; only cancel or the close timer calls `onClose`; only Done while recording starts processing; the transcription only becomes the sample text or is cleared on show |
| Island.InitialInv | apps/desktop/src/renderer/src/components/island/recording-island.tsx:15-17 | the mounted island satisfies the invariant |
| Island.HostStepPreservesInv | apps/desktop/src/renderer/src/components/island/recording-island.tsx:20-66 | every event keeps the invariant: no error, a recording is on screen, processing has its finish timer pending, and a visible complete island has its close timer pending |
| Island.RunPreservesInv | apps/desktop/src/renderer/src/components/island/recording-island.tsx:20-66 | any sequence of events keeps the invariant |
| Island.NeverError | apps/desktop/src/renderer/src/components/island/recording-island.tsx:135-142 | the error view is unreachable: no sequence of events leads to `error` |
| Island.DoneFinishClose | apps/desktop/src/renderer/src/components/island/recording-island.tsx:48-61 | Done moves to processing; the finish timer shows the sample text as complete and schedules the close; the close hides the island and returns it to idle |
| Island.CancelEndsRecording | apps/desktop/src/renderer/src/components/island/recording-island.tsx:63-66 | cancel calls `onClose`, returns to idle and keeps duration and transcription |
| Island.TicksCountSeconds | apps/desktop/src/renderer/src/components/island/recording-island.tsx:31-39 | while recording, the duration grows by exactly the number of ticks |
| Island.TicksFrozen | apps/desktop/src/renderer/src/components/island/recording-island.tsx:32 | outside recording, ticks change nothing |
| Island.StaleFinishCompletesNextSession | apps/desktop/src/renderer/src/components/island/recording-island.tsx:52-60 | a finish timer left over from a hidden session completes the next recording |
| Island.FixedHostStepPreservesInv | apps/desktop/src/renderer/src/components/island/recording-island.tsx:47-66 | with cancellation, every event keeps the stronger invariant: hidden means idle, a finish timer is pending exactly while processing, and a close timer only while complete and visible |
| Island.FixedRunPreservesInv | apps/desktop/src/renderer/src/components/island/recording-island.tsx:47-66 | any sequence of events keeps the stronger invariant |
| Island.FixedOnlyProcessingCompletes | apps/desktop/src/renderer/src/components/island/recording-island.tsx:52-55 | with cancellation, only a processing session becomes complete, and only by its finish timer; timers never disturb a recording |
| Island.FixedStaleFinishIgnored | apps/desktop/src/renderer/src/components/island/recording-island.tsx:52-60 | with cancellation, the leftover timer of the as-written counterexample finds nothing to do |
| Island.FormatDuration | apps/desktop/src/renderer/src/components/island/recording-island.tsx:41-45 | the display is digits, a colon, and exactly two digits |
| Island.FormatDurationRoundTrip | apps/desktop/src/renderer/src/components/island/recording-island.tsx:41-45 | the display shows whole minutes and the remaining seconds, and reading it back gives the duration |
| Recorder.StartBegin | apps/desktop/src/renderer/src/hooks/use-audio-recorder.ts:29-39 | before the device request is awaited, only `error` and `audioData` are cleared |
| Recorder.StartEnd | apps/desktop/src/renderer/src/hooks/use-audio-recorder.ts:41-63 | once the request settles, a success empties the buffer, adds a new stream and a new running encoder, sets `isRecording`, and leaves every earlier one as it was, whatever happened meanwhile; a constructor failure still adds a live stream; a failing `start(100)` also adds an inactive encoder that becomes the current one; on any failure `error` is the thrown message or "Failed to access microphone" and `isRecording` is unchanged |
| Recorder.Start | apps/desktop/src/renderer/src/hooks/use-audio-recorder.ts:29-64 | with nothing in between, a successful start leaves it recording with cleared `error` and `audioData`, an empty buffer, and one new stream and running encoder; a failed one sets `error` and keeps `isRecording` |
| Recorder.Chunk | apps/desktop/src/renderer/src/hooks/use-audio-recorder.ts:49-53 | a data event appends a non-empty chunk whichever encoder delivered it and whatever its state, drops an empty one, and changes nothing else |
| Recorder.Stop | apps/desktop/src/renderer/src/hooks/use-audio-recorder.ts:66-102 | without a running current encoder it resolves to null and only clears `isRecording`; otherwise it stops the current encoder and the current stream's tracks only, leaves the buffer as it is, and resolves to the chunks concatenated in order, which also become `audioData` |
| Recorder.Cancel | apps/desktop/src/renderer/src/hooks/use-audio-recorder.ts:104-122 | the visible state returns to the initial one and the buffer is emptied; the current encoder and the current stream's tracks are stopped, and earlier ones are left as they were |
| Recorder.TracksEnded | apps/desktop/src/renderer/src/hooks/use-audio-recorder.ts:45-56 | when the microphone goes away every stream and encoder stops, while the hook's visible state and buffer stay as they were |
| Recorder.ApplyPreservesInv | apps/desktop/src/renderer/src/hooks/use-audio-recorder.ts:29-122 | a running current encoder implies live current tracks, after every operation and event |
| Recorder.RecordingWithoutEncoder | apps/desktop/src/renderer/src/hooks/use-audio-recorder.ts:55-74 | from a state where recording implies a running current encoder, an event breaks that exactly when, during a recording, `start(100)` throws or the microphone goes away |
| Recorder.CancelDuringPromptUndone | apps/desktop/src/renderer/src/hooks/use-audio-recorder.ts:29-58 | a cancel or a stop while the device request is pending is undone: once granted, the start leaves it recording with a running encoder and live tracks |
| Recorder.TracksEndedLosesAudio | apps/desktop/src/renderer/src/hooks/use-audio-recorder.ts:66-74 | after the microphone goes away during a recording, it still reports recording, and a stop resolves to null while the buffer keeps the captured chunks |
| Recorder.StartThrowWhileRecording | apps/desktop/src/renderer/src/hooks/use-audio-recorder.ts:55-74 | after a recording start and a start whose `start(100)` throws, the hook still reports recording, a stop resolves to null, and both streams and the first encoder stay live |
| Recorder.FeedAppends | apps/desktop/src/renderer/src/hooks/use-audio-recorder.ts:49-53 | data events leave everything but the buffer alone; the buffer is the old buffer followed by the non-empty arriving chunks in order |
| Recorder.CaptureYieldsArrivedBytes | apps/desktop/src/renderer/src/hooks/use-audio-recorder.ts:42-97 | start, any data events, then stop yields exactly all arrived bytes in order, both as the result and as `audioData` |
| Recorder.SecondStopIsNull | apps/desktop/src/renderer/src/hooks/use-audio-recorder.ts:70-74 | stopping an already stopped recorder resolves to null and is not an error |
| Recorder.FlushAfterCancel | apps/desktop/src/renderer/src/hooks/use-audio-recorder.ts:104-115 | the final data event that a cancel's `stop()` queues lands in the emptied buffer; a later stop still resolves to null and a later start empties the buffer again |
| Recorder.DoubleStartLeaks | apps/desktop/src/renderer/src/hooks/use-audio-recorder.ts:41-112 | two successful starts followed by a cancel or a stop leave the first encoder running and the first stream live |
| Recorder.ReleasingEnd | apps/desktop/src/renderer/src/hooks/use-audio-recorder.ts:41-63 | a start end that first stops the encoder and stream it replaces: those are stopped afterwards, earlier ones keep their state, and a granted start runs a fresh encoder with an empty buffer |
| Recorder.FixedApplyKeepsOnlyNewestLive | apps/desktop/src/renderer/src/hooks/use-audio-recorder.ts:29-122 | with releasing starts, every operation keeps every encoder and stream but the newest stopped |
| Recorder.FixedRunOnlyNewestLive | apps/desktop/src/renderer/src/hooks/use-audio-recorder.ts:29-122 | with releasing starts, after any sequence of operations only the newest encoder and stream can be live |
| Recorder.FixedCancelReleasesAll | apps/desktop/src/renderer/src/hooks/use-audio-recorder.ts:104-113 | with releasing starts, a cancel after any sequence of operations leaves no encoder running and no stream live |
| Recorder.FixedStopReleasesAll | apps/desktop/src/renderer/src/hooks/use-audio-recorder.ts:76-100 | with releasing starts, stopping a running recording after any sequence of operations leaves no encoder running and no stream live |
| Server.HandleTranscribe | apps/backend/src/index.ts:31-58 | missing or empty audio gets 400 with "No audio data provided" and no model call; otherwise one model call on the audio, then 200 with text and byte count, or 500 with the thrown message or "Transcription failed"; an unreadable body gets 500 |
| Server.ReplyShapes | apps/backend/src/index.ts:31-58 | every reply is 200 with a transcript, or 400 or 500 with an error; the body is a transcript exactly when the status is ok |
| Client.EncodeAudio | apps/desktop/src/renderer/src/services/transcription.ts:19 | `Array.from` gives one integer from 0 to 255 per byte, in order |
| Client.AudioRoundTrip | apps/desktop/src/renderer/src/services/transcription.ts:18-20 | decoding the sent integer array gives back the bytes |
| Client.ErrorText | apps/desktop/src/renderer/src/services/transcription.ts:24-25 | the rejection message is the reply's `error` when that is present and non-empty, and "Transcription failed" in every other case |
| Client.Transcribe | apps/desktop/src/renderer/src/services/transcription.ts:12-29 | an ok reply resolves with its body; any other reply rejects with its error text; a failing `fetch` rejects with its error's message |
| EndToEnd.EmptyAudioRejected | apps/backend/src/index.ts:35-37 | an empty recording makes the client reject with "No audio data provided" and the model is not called |
| EndToEnd.RecognisedTextReturned | apps/backend/src/index.ts:39-48 | recognised speech resolves with the text and the recording's byte count, after exactly one model call on the sent bytes |
| EndToEnd.ModelFailureReported | apps/backend/src/index.ts:49-57 | a model failure rejects with the thrown message, or "Transcription failed" when that is empty or absent, after one model call |
| History.FilterRecordsSpec | apps/desktop/src/renderer/src/components/history/history-window.tsx:46-50 | a blank query shows every record; any other query keeps, in order and with multiplicity, exactly the records whose lower-cased text contains the lower-cased query |
| History.GroupRecordsSpec | apps/desktop/src/renderer/src/components/history/history-window.tsx:52-62 | every filtered record is in the group of its date label; every group's label is the label of some filtered record; labels are distinct and ordered by first appearance; each group holds exactly the records with its label, in filtered order |
| History.DeleteRecordSpec | apps/desktop/src/renderer/src/components/history/history-window.tsx:68-70 | deleting removes every record with the id and keeps all others in order; an unknown id changes nothing |
| History.ShownTextSpec | apps/desktop/src/renderer/src/components/history/history-item.tsx:55-70 | an expanded item shows the whole text; a collapsed one shows texts up to 60 characters whole and longer ones as their first 60 characters and `...` |
| History.ItemStep | apps/desktop/src/renderer/src/components/history/history-item.tsx:23-45 | copy hands the full text to the window and shows the copied state; delete is only possible while hovered and hands over the id; only a click on the card toggles expansion |
| History.ToggleTwice | apps/desktop/src/renderer/src/components/history/history-item.tsx:35-37 | two clicks on the card restore the view |
| History.HandleRequest | apps/desktop/src/renderer/src/components/history/history-window.tsx:64-70 | a delete request removes the record from the window; other requests leave it unchanged |
| Presets.ShownPromptSpec | apps/desktop/src/renderer/src/components/presets/preset-card.tsx:21-22 | prompts up to 80 characters are shown whole, longer ones as their first 80 characters and `...` |
| Presets.CardActions | apps/desktop/src/renderer/src/components/presets/preset-card.tsx:57-81 | edit is offered exactly when hovered; delete exactly when hovered and the preset is not built in |
| Presets.PressCard | apps/desktop/src/renderer/src/components/presets/preset-card.tsx:24-32 | a rendered button sends edit with the whole preset or delete with its id, and never delete for a built-in preset |
| Presets.OpenForm | apps/desktop/src/renderer/src/components/presets/preset-form.tsx:14-17 | the form edits exactly when a preset is given and starts from its fields, or from empty fields |
| Presets.SubmitSpec | apps/desktop/src/renderer/src/components/presets/preset-form.tsx:19-23 | submission is refused exactly when the button is disabled, exactly when a field is blank; saved name and prompt are non-empty and trimmed, and each is what was typed in that field with only surrounding white space cut |
| Presets.Loaded | apps/desktop/src/renderer/src/components/presets/presets-window.tsx:14-27 | loading ends in any case; the list becomes the loaded presets, or stays as it was on failure |
| Presets.AddNew | apps/desktop/src/renderer/src/components/presets/presets-window.tsx:29-32 | the form opens for a new preset; the list is unchanged |
| Presets.EditPreset | apps/desktop/src/renderer/src/components/presets/presets-window.tsx:34-37 | the form opens for the given preset; the list is unchanged |
| Presets.DeletePresetViewSpec | apps/desktop/src/renderer/src/components/presets/presets-window.tsx:39-46 | a successful delete removes every entry with the id and keeps the rest in order; a failed one changes nothing |
| Presets.ReplaceById | apps/desktop/src/renderer/src/components/presets/presets-window.tsx:53 | every entry with the id becomes the updated preset; every other entry stays in place |
| Presets.Save | apps/desktop/src/renderer/src/components/presets/presets-window.tsx:48-64 | with the preset that was being edited at submit time, a successful save replaces the entries with its id, and with none it appends; success closes whatever form is open; failure changes nothing |
| Presets.SaveAfterCancelReplacesSubmitted | apps/desktop/src/renderer/src/components/presets/presets-window.tsx:48-69 | an edit cancelled, or followed by editing another preset, before the answer arrives still replaces the submitted preset's entries, adds no entry, and closes the form |
| Presets.ReplaceByIdSpec | apps/desktop/src/renderer/src/components/presets/presets-window.tsx:53 | replacing keeps other entries, is idempotent, and changes nothing when no entry has the id |
| Presets.CancelForm | apps/desktop/src/renderer/src/components/presets/presets-window.tsx:66-69 | the form closes and nothing is being edited; the list is unchanged |
| Presets.WindowInvHolds | apps/desktop/src/renderer/src/components/presets/presets-window.tsx:10-11 | a preset is only ever being edited while the form is open, after any sequence of window events |
| Store.LeastExists | apps/desktop/src/main/index.ts:87-89 | every non-empty set of rows has one of least rank |
| Store.OrderKeys | apps/desktop/src/main/index.ts:87-89 | `orderBy` lists every row exactly once, in ascending rank |
| Store.GetTranscriptions | apps/desktop/src/main/index.ts:57-67 | every stored transcription exactly once with its fields, newest first |
| Store.GetPresets | apps/desktop/src/main/index.ts:86-96 | every stored preset exactly once with its fields, oldest first |
| Store.CreateTranscription | apps/desktop/src/main/index.ts:69-79 | the new row holds the text, the current time and the duration, with absent stored as null; it is echoed back; nothing else changes; a taken id is rejected |
| Store.DeleteTranscription | apps/desktop/src/main/index.ts:81-83 | the row is removed and nothing else changes; a missing id is rejected |
| Store.CreatePreset | apps/desktop/src/main/index.ts:98-111 | the new preset is never built in; the set of built-in presets and every other row are unchanged |
| Store.UpdatePreset | apps/desktop/src/main/index.ts:113-127 | only name and prompt change; built-in flag and creation time are kept; a missing id is rejected |
| Store.DeletePreset | apps/desktop/src/main/index.ts:129-135 | an existing preset that is not built in is removed; otherwise nothing changes; built-in presets always survive |
| Store.BuiltinsPermanent | apps/desktop/src/main/index.ts:98-135 | no sequence of preset calls adds, removes or demotes a built-in preset |
| Seed.BuiltinPresets | apps/desktop/prisma/seed.ts:9-29 | the three built-in presets have distinct ids |
| Seed.UpsertAllSpec | apps/desktop/prisma/seed.ts:34-45 | after the loop every listed id holds its listed name and prompt and is built in, an existing row keeps its creation time, and unlisted rows are untouched |
| Seed.SeedDbSpec | apps/desktop/prisma/seed.ts:9-45 | after seeding, "Beautify", "Concise" and "Formal" exist with their prompts and are built in; other presets and the transcriptions are untouched |
| Seed.UpsertAllIdempotent | apps/desktop/prisma/seed.ts:34-43 | upserting a list with distinct ids a second time changes nothing |
| Seed.SeedIdempotent | apps/desktop/prisma/seed.ts:34-43 | running the seed again, at any time, leaves the database as the first run left it |
| PresetFlow.CreateThroughForm | apps/desktop/src/renderer/src/components/presets/presets-window.tsx:54-60 | creating through the form appends one non-built-in preset with the trimmed fields, stores it, and leaves the built-in presets alone |
| PresetFlow.EditThroughForm | apps/desktop/src/renderer/src/components/presets/presets-window.tsx:50-53 | editing through the form keeps the preset's built-in flag in the list and in the store, and changes no other entry |
| PresetFlow.BlankSubmitChangesNothing | apps/desktop/src/renderer/src/components/presets/preset-form.tsx:21 | a blank field saves nothing anywhere |
| PresetFlow.CardDeleteAgrees | apps/desktop/src/renderer/src/components/presets/preset-card.tsx:70-81 | a delete from a card removes the preset from the store and from the list alike |

## Left out

- Electron plumbing is not modelled: window creation, the tray, global shortcuts, the preload bridge and the `ping` handler. The preload bridge in `apps/desktop/src/preload/index.ts` exposes no preset calls, so as shipped `window.api.db.getPresets` is missing. The presets window is modelled as if the calls existed.
- Real devices and media APIs are not modelled: `getUserMedia`, `MediaRecorder`, `Blob` and `arrayBuffer`. They are represented by the start outcome and by chunk events, which may come from any encoder.
- Recorder.Stop: the last data event, which the browser delivers after `stop()` but before `onstop`, is modelled as a chunk event before `Stop`. So the model resolves `stopRecording` at once instead of on `onstop`.
- The `GET /` route and CORS are left out; neither affects `/transcribe`.
- The Whisper call is modelled only as its answer, text or a throw. A `body.audio` that is neither absent nor an array of numbers is not modelled.
- Client.Transcribe: a reply body that is not valid JSON, and a 2xx body without `text`, are not modelled. A failing `fetch` is taken to reject with an `Error`, whose message is used; a rejection with any other value, which the source passes on unchanged, is not modelled.
- Prisma and SQLite are replaced by maps. The ORM's error detail becomes `None`, and id generation is an input.
- Store.GetTranscriptions: the `toISOString` rendering of timestamps is not modelled; the instant is passed through. Rows of equal rank come in an unspecified order, because the database does not promise one.
- Real time, time zones and daylight saving are not modelled. A timestamp is a local calendar day plus a time of day.
- The locale rendering of an earlier day (`toLocaleDateString`) is an abstract function, and so is `formatTime`.
- Text.Lower: `toLowerCase` is modelled for ASCII letters only. Other characters are kept as they are.
- Strings are sequences of characters, not UTF-16 code units, so lengths and the 60- and 80-character cuts count characters.
- Clipboard writes, the two-second "copied" timeout (modelled as an event), and purely presentational components are not modelled: the waveform, the indicator, buttons, tabs, settings, and the search box's own rendering.
- The `console` logging in the handlers is not modelled.

## Findings

| source | as written | input that shows it | evidently intended | confidence | as-written member | corrected member |
|---|---|---|---|---|---|---|
| apps/desktop/src/renderer/src/components/island/recording-island.tsx:52-60 | the 1.5 s and 2 s timeouts are never cancelled, not even when the island is hidden and shown again | show, Done, hide, show, then the 1.5 s timeout fires | a hidden island's timers are cancelled, so only the session in processing is completed by its own timer | medium, not executed | Island.StaleFinishCompletesNextSession | Island.FixedOnlyProcessingCompletes |
| apps/desktop/src/renderer/src/hooks/use-audio-recorder.ts:41-55 | a start overwrites `streamRef` and `mediaRecorderRef` without stopping what they held, and stop and cancel reach only the current objects | start, start, then cancel: the first encoder keeps recording and the first microphone stream stays live | a start stops the encoder and stream it replaces, so a cancel or stop releases everything | low, not executed; no caller in the modelled code starts twice | Recorder.DoubleStartLeaks | Recorder.FixedCancelReleasesAll |

=== FILE: calendar.dfy ===
/** Local calendar days of the proleptic Gregorian calendar and the history's
    date-group label. A timestamp is a calendar day plus a time of day; time
    zones are already applied. */
module Calendar {

  datatype Day = Day(year: int, month: int, day: int)

  datatype Timestamp = Timestamp(date: Day, millisOfDay: nat)

  predicate IsLeapYear(y: int) {
    y % 4 == 0 && (y % 100 != 0 || y % 400 == 0)
  }

  function DaysInMonth(y: int, m: int): int
    requires 1 <= m <= 12
  {
    if m == 2 then (if IsLeapYear(y) then 29 else 28)
    else if m == 4 || m == 6 || m == 9 || m == 11 then 30
    else 31
  }

  predicate Valid(d: Day) {
    1 <= d.month <= 12 && 1 <= d.day <= DaysInMonth(d.year, d.month)
  }

  /** `setDate(getDate() - 1)`: the previous day, rolling back across month
      and year boundaries. */
  function PrevDay(d: Day): (p: Day)
    requires Valid(d)
    ensures Valid(p)
  {
    if d.day > 1 then Day(d.year, d.month, d.day - 1)
    else if d.month > 1 then Day(d.year, d.month - 1, DaysInMonth(d.year, d.month - 1))
    else Day(d.year - 1, 12, 31)
  }

  /** The following day; the independent partner of `PrevDay`. */
  function NextDay(d: Day): (n: Day)
    requires Valid(d)
    ensures Valid(n)
  {
    if d.day < DaysInMonth(d.year, d.month) then Day(d.year, d.month, d.day + 1)
    else if d.month < 12 then Day(d.year, d.month + 1, 1)
    else Day(d.year + 1, 1, 1)
  }

  /** The day before and the day after undo each other, so every day has
      exactly one "yesterday". */
  lemma PrevNextInverse(d: Day)
    requires Valid(d)
    ensures NextDay(PrevDay(d)) == d
    ensures PrevDay(NextDay(d)) == d
    ensures PrevDay(d) != d
  {
  }

  datatype DayClass = IsToday | IsYesterday | Earlier

  /** How a record's day relates to today; today is checked first. */
  function Classify(d: Day, today: Day): DayClass
    requires Valid(today)
  {
    if d == today then IsToday
    else if d == PrevDay(today) then IsYesterday
    else Earlier
  }

  /** A day is "Yesterday" exactly when the day after it is today, and "Today"
      and "Yesterday" never describe the same day. */
  lemma ClassifySpec(d: Day, today: Day)
    requires Valid(d) && Valid(today)
    ensures Classify(d, today) == IsToday <==> d == today
    ensures Classify(d, today) == IsYesterday <==> NextDay(d) == today
  {
    PrevNextInverse(today);
    PrevNextInverse(d);
  }

  /** `formatDateGroup`: "Today", "Yesterday", or the locale rendering of the
      day (weekday, month, day), which is abstract here. */
  function DateLabel(t: Timestamp, now: Timestamp, locale: Day -> string): (text: string)
    requires Valid(now.date)
  {
    match Classify(t.date, now.date)
    case IsToday => "Today"
    case IsYesterday => "Yesterday"
    case Earlier => locale(t.date)
  }

  /** The label depends on the calendar day only, never on the time of day,
      nor on the time of day of `now`. */
  lemma LabelIgnoresTimeOfDay(t: Timestamp, u: Timestamp, now: Timestamp, now': Timestamp, locale: Day -> string)
    requires Valid(now.date) && t.date == u.date && now.date == now'.date
    ensures DateLabel(t, now, locale) == DateLabel(u, now', locale)
  {
  }

  /** A record from the previous calendar day, even in the previous month or
      year, is labelled "Yesterday". */
  lemma YesterdayLabel(t: Timestamp, now: Timestamp, locale: Day -> string)
    requires Valid(t.date) && Valid(now.date) && NextDay(t.date) == now.date
    ensures DateLabel(t, now, locale) == "Yesterday"
  {
    ClassifySpec(t.date, now.date);
  }
}

=== FILE: client.dfy ===
/** The desktop's `transcribeAudio`: the audio bytes become the JSON integer
    array `audio`, and the reply becomes a result or a rejection. The network
    is an input: the reply delivered, or `fetch` rejecting. */
module Client {
  import opened Common
  import opened Wire
  import Server

  /** `Array.from(audioData)`: one integer per byte, in order. */
  function EncodeAudio(audio: Bytes): (arr: seq<int>)
    ensures |arr| == |audio|
    ensures forall i :: 0 <= i < |audio| ==> arr[i] == audio[i] && 0 <= arr[i] < 256
  {
    if |audio| == 0 then [] else [audio[0] as int] + EncodeAudio(audio[1..])
  }

  /** Reads an integer array back as bytes; fails on a value outside 0..255. */
  function DecodeAudio(arr: seq<int>): (r: Option<Bytes>)
    ensures r.Some? ==> |r.value| == |arr|
  {
    if |arr| == 0 then Some([])
    else if 0 <= arr[0] < 256 then
      match DecodeAudio(arr[1..])
      case Some(rest) => Some([arr[0] as Byte] + rest)
      case None => None
    else None
  }

  /** Nothing is lost in the encoding: decoding gives back the bytes. */
  lemma {:induction false} AudioRoundTrip(audio: Bytes)
    ensures DecodeAudio(EncodeAudio(audio)) == Some(audio)
  {
    if |audio| > 0 {
      AudioRoundTrip(audio[1..]);
      assert EncodeAudio(audio)[1..] == EncodeAudio(audio[1..]);
      assert [audio[0]] + audio[1..] == audio;
    }
  }

  /** The request body the client sends; empty audio is sent as-is. */
  function Request(audio: Bytes): Server.RequestBody {
    Server.Json(Some(EncodeAudio(audio)))
  }

  /** `fetch` settled with a reply, or rejected with an `Error` carrying
      `message`. */
  datatype Exchange = Delivered(reply: Reply) | Unreachable(message: string)

  /** The promise settles with the reply body or rejects with a message. */
  datatype Settled = Resolved(body: ReplyBody) | Rejected(message: string)

  const FailureMessage: string := "Transcription failed"

  /** The rejection message for a non-ok reply: its `error` text unless that
      is missing or empty (`errorData.error || 'Transcription failed'`). */
  function ErrorText(body: ReplyBody): (m: string)
    ensures m != ""
    ensures body.Problem? && body.error != "" ==> m == body.error
    ensures !(body.Problem? && body.error != "") ==> m == FailureMessage
  {
    if body.Problem? && body.error != "" then body.error else FailureMessage
  }

  function Transcribe(x: Exchange): (s: Settled)
    ensures x.Delivered? && IsOk(x.reply.status) ==> s == Resolved(x.reply.body)
    ensures x.Delivered? && !IsOk(x.reply.status) ==> s.Rejected? && s.message == ErrorText(x.reply.body)
    ensures x.Unreachable? ==> s == Rejected(x.message)
  {
    match x
    case Unreachable(message) => Rejected(message)
    case Delivered(reply) =>
      if IsOk(reply.status) then Resolved(reply.body) else Rejected(ErrorText(reply.body))
  }
}

=== FILE: common.dfy ===
/** Values shared by every component of the model: optional values, what a
    JavaScript `throw` carries, and bytes. */
module Common {

  /** A present or absent value (`null`/`undefined` in the program). */
  datatype Option<+T> = None | Some(value: T)

  /** What a caught exception is: an `Error` object with a message, or some
      other thrown value that has none. */
  datatype Thrown = ErrorObject(message: string) | NonError

  /** The idiom `err instanceof Error ? err.message : fallback`: the message of
      an `Error` object (even an empty one), otherwise the fallback. */
  function MessageOr(thrown: Thrown, fallback: string): (m: string)
    ensures thrown.ErrorObject? ==> m == thrown.message
    ensures thrown.NonError? ==> m == fallback
  {
    match thrown
    case ErrorObject(message) => message
    case NonError => fallback
  }

  /** An unsigned 8-bit value, the element type of a `Uint8Array`. */
  type Byte = b: int | 0 <= b < 256

  type Bytes = seq<Byte>
}

=== FILE: end_to_end.dfy ===
/** The desktop client and the backend together: what the promise returned by
    `transcribeAudio` settles to for a recording, given the model's answer. */
module EndToEnd {
  import opened Common
  import opened Wire
  import Server
  import Client

  /** What the client's promise settles to when the backend is reached. */
  function Roundtrip(audio: Bytes, answer: Server.ModelResult): Client.Settled {
    Client.Transcribe(Client.Delivered(Server.HandleTranscribe(Client.Request(audio), answer).reply))
  }

  /** An empty recording is rejected by the backend with its message, and the
      model is not asked. */
  lemma EmptyAudioRejected(audio: Bytes, answer: Server.ModelResult)
    requires |audio| == 0
    ensures Roundtrip(audio, answer) == Client.Rejected(Server.NoAudioMessage)
    ensures Server.HandleTranscribe(Client.Request(audio), answer).modelCalls == []
  {
    assert !Server.HasAudio(Client.Request(audio));
  }

  /** Recognised speech comes back as the text with the recording's byte
      count, after exactly one model call on the encoded bytes. */
  lemma RecognisedTextReturned(audio: Bytes, answer: Server.ModelResult)
    requires |audio| > 0 && answer.Recognised?
    ensures Roundtrip(audio, answer) == Client.Resolved(Transcript(answer.text, |audio|))
    ensures Server.HandleTranscribe(Client.Request(audio), answer).modelCalls == [Client.EncodeAudio(audio)]
  {
    assert Server.HasAudio(Client.Request(audio));
  }

  /** A model failure is reported by the client with the backend's message,
      or with the client's own fallback when that message is empty. */
  lemma ModelFailureReported(audio: Bytes, answer: Server.ModelResult)
    requires |audio| > 0 && answer.ModelThrew?
    ensures var m := MessageOr(answer.thrown, Server.FailureMessage);
      Roundtrip(audio, answer) == Client.Rejected(if m == "" then Client.FailureMessage else m)
    ensures Server.HandleTranscribe(Client.Request(audio), answer).modelCalls == [Client.EncodeAudio(audio)]
  {
    assert Server.HasAudio(Client.Request(audio));
  }
}

=== FILE: entities.dfy ===
/** The preset shape exchanged between the main process and the windows. */
module Entities {

  datatype Preset = Preset(id: string, name: string, prompt: string, isBuiltin: bool)

  /** The `{name, prompt}` payload of the create and update calls. */
  datatype PresetInput = PresetInput(name: string, prompt: string)
}

=== FILE: grouping.dfy ===
/** Grouping a list by a key into an insertion-ordered map, the way
    `groups.set(key, [...(groups.get(key) || []), item])` does over a
    JavaScript `Map`. */
module Grouping {

  datatype Group<K, T> = Group(key: K, items: seq<T>)

  /** The keys of the groups, in map iteration order. */
  function Keys<K, T>(gs: seq<Group<K, T>>): (ks: seq<K>)
    ensures |ks| == |gs|
    ensures forall i :: 0 <= i < |gs| ==> ks[i] == gs[i].key
  {
    seq(|gs|, i requires 0 <= i < |gs| => gs[i].key)
  }

  /** Position of the group with key `k`, or `|gs|` when there is none
      (`Map.prototype.get` returning `undefined`). */
  function Find<K(==), T>(gs: seq<Group<K, T>>, k: K): (i: nat)
    ensures i <= |gs|
    ensures i < |gs| ==> gs[i].key == k
    ensures forall j :: 0 <= j < i ==> gs[j].key != k
  {
    if |gs| == 0 then 0
    else if gs[0].key == k then 0
    else 1 + Find(gs[1..], k)
  }

  /** One `groups.set(k, [...existing, x])`: an existing key keeps its position
      and gets `x` appended; a new key goes at the end. */
  function Place<K(==), T>(gs: seq<Group<K, T>>, k: K, x: T): seq<Group<K, T>> {
    var i := Find(gs, k);
    if i < |gs| then gs[i := Group(k, gs[i].items + [x])] else gs + [Group(k, [x])]
  }

  /** The whole `forEach` over `xs`. */
  function GroupBy<K(==), T>(xs: seq<T>, key: T -> K): seq<Group<K, T>>
    decreases |xs|
  {
    if |xs| == 0 then []
    else
      var last := xs[|xs| - 1];
      Place(GroupBy(xs[..|xs| - 1], key), key(last), last)
  }

  /** Reference definition of a group's contents: the items of `xs` whose key
      is `k`, in their order in `xs`. */
  function WithKey<K(==), T>(xs: seq<T>, key: T -> K, k: K): seq<T>
    decreases |xs|
  {
    if |xs| == 0 then []
    else
      var last := xs[|xs| - 1];
      WithKey(xs[..|xs| - 1], key, k) + (if key(last) == k then [last] else [])
  }

  /** The keys of `xs`, in order, with repetitions. */
  function KeyList<K, T>(xs: seq<T>, key: T -> K): (ks: seq<K>)
    ensures |ks| == |xs|
    ensures forall i :: 0 <= i < |xs| ==> ks[i] == key(xs[i])
  {
    if |xs| == 0 then [] else KeyList(xs[..|xs| - 1], key) + [key(xs[|xs| - 1])]
  }

  /** Index of the first occurrence of `k` in `ks`. */
  function FirstIndex<K(==)>(ks: seq<K>, k: K): (i: nat)
    requires k in ks
    ensures i < |ks| && ks[i] == k
    ensures forall j :: 0 <= j < i ==> ks[j] != k
  {
    if ks[0] == k then 0 else 1 + FirstIndex(ks[1..], k)
  }

  lemma {:induction false} FirstIndexSnoc<K>(ks: seq<K>, k: K, extra: K)
    requires k in ks
    ensures FirstIndex(ks + [extra], k) == FirstIndex(ks, k)
  {
    if ks[0] != k {
      assert (ks + [extra])[1..] == ks[1..] + [extra];
      FirstIndexSnoc(ks[1..], k, extra);
    }
  }

  /** Placing `x` under key `k` keeps the existing keys and, when `k` is new,
      adds it at the end. */
  lemma PlaceKeys<K, T>(gs: seq<Group<K, T>>, k: K, x: T)
    ensures Find(gs, k) < |gs| ==> Keys(Place(gs, k, x)) == Keys(gs)
    ensures Find(gs, k) == |gs| ==> Keys(Place(gs, k, x)) == Keys(gs) + [k]
  {
    var p := Place(gs, k, x);
    if Find(gs, k) < |gs| {
      assert forall j :: 0 <= j < |p| ==> Keys(p)[j] == Keys(gs)[j];
    } else {
      assert forall j :: 0 <= j < |p| ==> Keys(p)[j] == (Keys(gs) + [k])[j];
    }
  }

  /** The group keys are pairwise distinct. */
  ghost predicate DistinctKeys<K, T>(gs: seq<Group<K, T>>) {
    forall i, j :: 0 <= i < j < |gs| ==> gs[i].key != gs[j].key
  }

  /** Placing `x` under key `k` appends it to the group of `k` and to no other. */
  lemma PlaceItems<K, T>(gs: seq<Group<K, T>>, k: K, x: T)
    requires DistinctKeys(gs)
    ensures var gs' := Place(gs, k, x);
      forall j :: 0 <= j < |gs'| ==>
        gs'[j].items == (if j < |gs| then gs[j].items else []) + (if gs'[j].key == k then [x] else [])
  {
  }

  lemma {:induction false} GroupByDistinct<K, T>(xs: seq<T>, key: T -> K)
    ensures DistinctKeys(GroupBy(xs, key))
    decreases |xs|
  {
    if |xs| > 0 {
      var last := xs[|xs| - 1];
      GroupByDistinct(xs[..|xs| - 1], key);
      PlaceKeys(GroupBy(xs[..|xs| - 1], key), key(last), last);
    }
  }

  /** The group keys are exactly the keys occurring in `xs`. */
  lemma {:induction false} GroupByKeys<K, T>(xs: seq<T>, key: T -> K)
    ensures forall k :: k in Keys(GroupBy(xs, key)) <==> k in KeyList(xs, key)
    decreases |xs|
  {
    if |xs| > 0 {
      var init := xs[..|xs| - 1];
      var last := xs[|xs| - 1];
      GroupByKeys(init, key);
      PlaceKeys(GroupBy(init, key), key(last), last);
      assert KeyList(xs, key) == KeyList(init, key) + [key(last)];
      var gs := GroupBy(init, key);
      if Find(gs, key(last)) < |gs| {
        assert Keys(gs)[Find(gs, key(last))] == key(last);
      }
    }
  }

  /** Group keys are ordered by the first appearance of the key in `xs`. */
  ghost predicate FirstAppearanceOrder<K, T>(gs: seq<Group<K, T>>, ks: seq<K>) {
    forall i, j :: 0 <= i < j < |gs| && gs[i].key in ks && gs[j].key in ks ==>
      FirstIndex(ks, gs[i].key) < FirstIndex(ks, gs[j].key)
  }

  lemma {:induction false} GroupByOrder<K, T>(xs: seq<T>, key: T -> K)
    ensures FirstAppearanceOrder(GroupBy(xs, key), KeyList(xs, key))
    decreases |xs|
  {
    if |xs| > 0 {
      var init := xs[..|xs| - 1];
      var last := xs[|xs| - 1];
      var k := key(last);
      var gs := GroupBy(init, key);
      var ks := KeyList(init, key);
      GroupByOrder(init, key);
      GroupByKeys(init, key);
      PlaceKeys(gs, k, last);
      assert KeyList(xs, key) == ks + [k];
      var gs' := Place(gs, k, last);
      var ks' := ks + [k];
      assert GroupBy(xs, key) == gs';
      forall i, j | 0 <= i < j < |gs'| && gs'[i].key in ks' && gs'[j].key in ks'
        ensures FirstIndex(ks', gs'[i].key) < FirstIndex(ks', gs'[j].key)
      {
        assert Keys(gs')[i] == gs'[i].key && Keys(gs')[j] == gs'[j].key;
        assert gs'[i].key == gs[i].key by {
          assert Keys(gs')[i] == Keys(gs)[i];
        }
        assert Keys(gs)[i] in Keys(gs);
        FirstIndexSnoc(ks, gs[i].key, k);
        if j < |gs| {
          assert gs'[j].key == gs[j].key by {
            assert Keys(gs')[j] == Keys(gs)[j];
          }
          assert Keys(gs)[j] in Keys(gs);
          FirstIndexSnoc(ks, gs[j].key, k);
        } else {
          assert Find(gs, k) == |gs| && gs'[j].key == k;
          assert k !in Keys(gs);
          assert k !in ks;
          assert ks'[|ks|] == k;
        }
      }
    }
  }

  /** Each group holds exactly the items of `xs` with its key, in order. */
  lemma {:induction false} GroupByItems<K, T>(xs: seq<T>, key: T -> K)
    ensures forall i :: 0 <= i < |GroupBy(xs, key)| ==>
      GroupBy(xs, key)[i].items == WithKey(xs, key, GroupBy(xs, key)[i].key)
    decreases |xs|
  {
    if |xs| > 0 {
      var init := xs[..|xs| - 1];
      var last := xs[|xs| - 1];
      var k := key(last);
      var gs := GroupBy(init, key);
      GroupByItems(init, key);
      GroupByKeys(init, key);
      GroupByDistinct(init, key);
      PlaceKeys(gs, k, last);
      PlaceItems(gs, k, last);
      if Find(gs, k) == |gs| {
        assert k !in Keys(gs);
        WithAbsentKey(init, key, k);
      }
      var gs' := Place(gs, k, last);
      assert GroupBy(xs, key) == gs';
      forall i | 0 <= i < |gs'|
        ensures gs'[i].items == WithKey(xs, key, gs'[i].key)
      {
        assert WithKey(xs, key, gs'[i].key)
          == WithKey(init, key, gs'[i].key) + (if k == gs'[i].key then [last] else []);
        if i < |gs| {
          assert Keys(gs')[i] == Keys(gs)[i];
          assert gs'[i].key == gs[i].key;
          assert gs[i].items == WithKey(init, key, gs[i].key);
          assert gs'[i].items == gs[i].items + (if gs'[i].key == k then [last] else []);
        } else {
          assert gs'[i].key == k;
          assert gs'[i].items == [last];
          assert WithKey(init, key, k) == [];
        }
      }
    }
  }

  /** `GroupBy` meets its reference description: distinct keys, exactly the
      keys of `xs`, ordered by first appearance, and each group holding exactly
      the items with its key in their original order. */
  lemma GroupBySpec<K, T>(xs: seq<T>, key: T -> K)
    ensures DistinctKeys(GroupBy(xs, key))
    ensures forall k :: k in Keys(GroupBy(xs, key)) <==> k in KeyList(xs, key)
    ensures FirstAppearanceOrder(GroupBy(xs, key), KeyList(xs, key))
    ensures forall i :: 0 <= i < |GroupBy(xs, key)| ==>
      GroupBy(xs, key)[i].items == WithKey(xs, key, GroupBy(xs, key)[i].key)
  {
    GroupByDistinct(xs, key);
    GroupByKeys(xs, key);
    GroupByOrder(xs, key);
    GroupByItems(xs, key);
  }

  /** A key that never occurs selects nothing. */
  lemma {:induction false} WithAbsentKey<K, T>(xs: seq<T>, key: T -> K, k: K)
    requires k !in KeyList(xs, key)
    ensures WithKey(xs, key, k) == []
  {
    if |xs| > 0 {
      assert KeyList(xs, key) == KeyList(xs[..|xs| - 1], key) + [key(xs[|xs| - 1])];
      WithAbsentKey(xs[..|xs| - 1], key, k);
    }
  }

  /** Every item lands in the group of its key, and in no other group. */
  lemma ItemInItsGroupOnly<K, T>(xs: seq<T>, key: T -> K, n: nat, g: nat)
    requires n < |xs| && g < |GroupBy(xs, key)|
    ensures xs[n] in GroupBy(xs, key)[g].items ==> key(xs[n]) == GroupBy(xs, key)[g].key
  {
    GroupBySpec(xs, key);
    WithKeyHasKey(xs, key, GroupBy(xs, key)[g].key);
  }

  lemma {:induction false} WithKeyHasKey<K, T>(xs: seq<T>, key: T -> K, k: K)
    ensures forall x :: x in WithKey(xs, key, k) ==> key(x) == k
  {
    if |xs| > 0 {
      WithKeyHasKey(xs[..|xs| - 1], key, k);
    }
  }
}

=== FILE: history.dfy ===
/** The history window: transcription records, the search filter, grouping by
    date label, deletion, and each item's collapsed or expanded view. */
module History {
  import opened Common
  import opened Text
  import opened Seqs
  import opened Grouping
  import opened Calendar

  datatype Record = Record(id: string, text: string, timestamp: Timestamp, duration: Option<int>)

  /** The lower-cased text contains the lower-cased (untrimmed) query. */
  function MatchesQuery(query: string): Record -> bool {
    (r: Record) => Contains(Lower(r.text), Lower(query))
  }

  /** `filteredRecords`: a blank query shows every record. */
  function FilterRecords(records: seq<Record>, query: string): seq<Record> {
    if Trim(query) == [] then records else Filter(records, MatchesQuery(query))
  }

  /** A blank query returns the list unchanged; any other query keeps, in
      order and with their multiplicity, exactly the records whose text
      contains the query ignoring case, and nothing else. */
  lemma FilterRecordsSpec(records: seq<Record>, query: string, r: Record)
    ensures Blank(query) ==> FilterRecords(records, query) == records
    ensures !Blank(query) ==>
      multiset(FilterRecords(records, query))[r]
        == if Occurs(Lower(r.text), Lower(query)) then multiset(records)[r] else 0
    ensures IsSubseq(FilterRecords(records, query), records)
  {
    TrimEmptyIffBlank(query);
    if !Blank(query) {
      FilterCounts(records, MatchesQuery(query), r);
      ContainsIffOccurs(Lower(r.text), Lower(query));
      FilterIsSubseq(records, MatchesQuery(query));
    } else {
      SubseqRefl(records);
    }
  }

  /** The group a record belongs to. */
  function LabelOf(now: Timestamp, locale: Day -> string): Record -> string
    requires Valid(now.date)
  {
    (r: Record) => DateLabel(r.timestamp, now, locale)
  }

  /** `groupedRecords`: filtered records grouped by date label. */
  function GroupRecords(filtered: seq<Record>, now: Timestamp, locale: Day -> string): seq<Group<string, Record>>
    requires Valid(now.date)
  {
    GroupBy(filtered, LabelOf(now, locale))
  }

  /** Each filtered record is in the group of its label and in no other; group
      labels are distinct, ordered by first appearance, and each group keeps
      its records in filtered order. */
  lemma GroupRecordsSpec(filtered: seq<Record>, now: Timestamp, locale: Day -> string)
    requires Valid(now.date)
    ensures var gs := GroupRecords(filtered, now, locale);
      && DistinctKeys(gs)
      && FirstAppearanceOrder(gs, KeyList(filtered, LabelOf(now, locale)))
      && (forall i :: 0 <= i < |gs| ==> gs[i].items == WithKey(filtered, LabelOf(now, locale), gs[i].key))
      && (forall n :: 0 <= n < |filtered| ==> DateLabel(filtered[n].timestamp, now, locale) in Keys(gs))
      && (forall i :: 0 <= i < |gs| ==>
            exists n :: 0 <= n < |filtered| && DateLabel(filtered[n].timestamp, now, locale) == gs[i].key)
  {
    var key := LabelOf(now, locale);
    var gs := GroupBy(filtered, key);
    GroupBySpec(filtered, key);
    GroupByKeys(filtered, key);
    forall n | 0 <= n < |filtered|
      ensures DateLabel(filtered[n].timestamp, now, locale) in Keys(gs)
    {
      assert KeyList(filtered, key)[n] == key(filtered[n]);
    }
    forall i | 0 <= i < |gs|
      ensures exists n :: 0 <= n < |filtered| && DateLabel(filtered[n].timestamp, now, locale) == gs[i].key
    {
      assert Keys(gs)[i] == gs[i].key;
      var n :| 0 <= n < |filtered| && KeyList(filtered, key)[n] == gs[i].key;
      assert key(filtered[n]) == DateLabel(filtered[n].timestamp, now, locale);
    }
  }

  function WithoutId(id: string): Record -> bool {
    (r: Record) => r.id != id
  }

  /** `handleDelete`. */
  function DeleteRecord(records: seq<Record>, id: string): seq<Record> {
    Filter(records, WithoutId(id))
  }

  /** Deleting removes every record with the id and keeps all others, in order
      and with their multiplicity; an id no record has changes nothing. */
  lemma DeleteRecordSpec(records: seq<Record>, id: string, r: Record)
    ensures multiset(DeleteRecord(records, id))[r] == if r.id == id then 0 else multiset(records)[r]
    ensures forall i :: 0 <= i < |DeleteRecord(records, id)| ==> DeleteRecord(records, id)[i].id != id
    ensures IsSubseq(DeleteRecord(records, id), records)
    ensures (forall i :: 0 <= i < |records| ==> records[i].id != id) ==> DeleteRecord(records, id) == records
  {
    FilterCounts(records, WithoutId(id), r);
    FilterIsSubseq(records, WithoutId(id));
    if forall i :: 0 <= i < |records| ==> records[i].id != id {
      FilterKeepsAll(records, WithoutId(id));
    }
  }

  /** An item's local state: expanded, "copied" feedback, hovered. */
  datatype ItemView = ItemView(expanded: bool, copied: bool, hovered: bool)

  const CollapsedLength: nat := 60

  function InitialItem(): ItemView {
    ItemView(false, false, false)
  }

  /** The text an item shows. */
  function ShownText(v: ItemView, r: Record): string {
    if v.expanded then r.text else Truncate(r.text, CollapsedLength)
  }

  lemma ShownTextSpec(v: ItemView, r: Record)
    ensures v.expanded ==> ShownText(v, r) == r.text
    ensures !v.expanded && |r.text| <= CollapsedLength ==> ShownText(v, r) == r.text
    ensures !v.expanded && |r.text| > CollapsedLength ==>
      |ShownText(v, r)| == 63 && ShownText(v, r) == r.text[..60] + "..."
  {
  }

  datatype ItemEvent = CardClick | CopyClick | DeleteClick | MouseEnter | MouseLeave | CopiedTimer

  /** What an item asks its window to do. */
  datatype ItemRequest = NoRequest | CopyText(text: string) | DeleteId(id: string)

  /** The item's handlers. Copy and delete stop the click from reaching the
      card, so they do not toggle expansion; delete is rendered only while
      hovered. */
  function ItemStep(v: ItemView, r: Record, e: ItemEvent): (res: (ItemView, ItemRequest))
    ensures e.CopyClick? ==> res.1 == CopyText(r.text) && res.0.copied
    ensures e.DeleteClick? && v.hovered ==> res.1 == DeleteId(r.id)
    ensures res.1.DeleteId? ==> v.hovered && e.DeleteClick?
    ensures res.0.expanded != v.expanded <==> e.CardClick?
  {
    match e
    case CardClick => (v.(expanded := !v.expanded), NoRequest)
    case CopyClick => (v.(copied := true), CopyText(r.text))
    case DeleteClick => if v.hovered then (v, DeleteId(r.id)) else (v, NoRequest)
    case MouseEnter => (v.(hovered := true), NoRequest)
    case MouseLeave => (v.(hovered := false), NoRequest)
    case CopiedTimer => (v.(copied := false), NoRequest)
  }

  /** Clicking the card twice restores the view. */
  lemma ToggleTwice(v: ItemView, r: Record)
    ensures ItemStep(ItemStep(v, r, CardClick).0, r, CardClick).0 == v
  {
  }

  datatype Window = Window(records: seq<Record>, query: string)

  /** The window acting on an item's request: copy goes to the clipboard (not
      modelled), delete removes the record. */
  function HandleRequest(w: Window, q: ItemRequest): (w': Window)
    ensures q.DeleteId? ==> w'.records == DeleteRecord(w.records, q.id)
    ensures !q.DeleteId? ==> w' == w
  {
    match q
    case DeleteId(id) => w.(records := DeleteRecord(w.records, id))
    case _ => w
  }
}

=== FILE: island.dfy ===
/** The recording island: the floating panel that shows a recording in
    progress, a "Transcribing..." spinner, then the transcript. Transcription
    is only simulated: pressing Done starts a 1.5 s timer that fills in a fixed
    sample text, and a further 2 s timer asks the host to close the island.
    Timers are explicit events here; neither timer is ever cleared, so a timer
    scheduled in one session can still fire in a later one. */
module Island {
  import opened Common
  import opened Text

  datatype Phase = Idle | Recording | Processing | Complete | Error

  /** `visible` is the host's prop; `pendingFinish` and `pendingClose` count
      the 1.5 s and 2 s timeouts scheduled and not yet fired. */
  datatype Island = Island(
    visible: bool,
    phase: Phase,
    duration: nat,
    transcription: string,
    pendingFinish: nat,
    pendingClose: nat)

  const SampleTranscription: string := "This is a sample transcription of what you said..."

  /** Mounted hidden, as the host first renders it. */
  function Initial(): Island {
    Island(false, Idle, 0, "", 0, 0)
  }

  datatype Event =
    | SetVisible(visible: bool)  // the host changes the `visible` prop
    | Tick                       // the one-second interval fires
    | DoneClick                  // the Done button
    | CancelClick                // the cancel (X) button
    | FinishTimer                // the simulated transcription delay ends
    | CloseTimer                 // the auto-close delay ends

  /** The state after an event and whether `onClose` was called. */
  datatype Outcome = Outcome(island: Island, closeRequested: bool)

  /** The effect on `visible`: it runs only when the prop changes. Showing
      starts a fresh recording; hiding forces `Idle` whatever the phase. */
  function Visibility(s: Island, v: bool): (r: Island)
    ensures r.visible == v
    ensures v == s.visible ==> r == s
    ensures v && !s.visible ==> r.phase == Recording && r.duration == 0 && r.transcription == ""
    ensures !v ==> r.phase == (if s.visible then Idle else s.phase)
    ensures !v ==> r.duration == s.duration && r.transcription == s.transcription
    ensures r.pendingFinish == s.pendingFinish && r.pendingClose == s.pendingClose
  {
    if v == s.visible then s
    else if v then s.(visible := true, phase := Recording, duration := 0, transcription := "")
    else s.(visible := false, phase := Idle)
  }

  /** The Done and cancel buttons are rendered only while visible and recording. */
  predicate ButtonsShown(s: Island) {
    s.visible && s.phase == Recording
  }

  /** One event handled by the island alone. */
  function Step(s: Island, e: Event): (o: Outcome)
    ensures o.island.phase != Error || s.phase == Error
    ensures o.island.duration != s.duration ==>
      (e.Tick? && s.phase == Recording && o.island.duration == s.duration + 1)
      || (e.SetVisible? && e.visible && !s.visible && o.island.duration == 0)
    ensures o.closeRequested ==> (e.CancelClick? && ButtonsShown(s)) || (e.CloseTimer? && s.pendingClose > 0)
    ensures o.island.phase == Processing && s.phase != Processing ==> e.DoneClick? && ButtonsShown(s)
    ensures o.island.transcription != s.transcription ==>
      o.island.transcription == SampleTranscription || (e.SetVisible? && o.island.transcription == "")
  {
    match e
    case SetVisible(v) => Outcome(Visibility(s, v), false)
    case Tick =>
      if s.phase == Recording then Outcome(s.(duration := s.duration + 1), false)
      else Outcome(s, false)
    case DoneClick =>
      if ButtonsShown(s) then Outcome(s.(phase := Processing, pendingFinish := s.pendingFinish + 1), false)
      else Outcome(s, false)
    case CancelClick =>
      if ButtonsShown(s) then Outcome(s.(phase := Idle), true)
      else Outcome(s, false)
    case FinishTimer =>
      if s.pendingFinish > 0 then
        Outcome(s.(transcription := SampleTranscription, phase := Complete,
                   pendingFinish := s.pendingFinish - 1, pendingClose := s.pendingClose + 1), false)
      else Outcome(s, false)
    case CloseTimer =>
      if s.pendingClose > 0 then Outcome(s.(pendingClose := s.pendingClose - 1), true)
      else Outcome(s, false)
  }

  /** The island inside its host: the host answers `onClose` by hiding it. */
  function HostStep(s: Island, e: Event): Island {
    var o := Step(s, e);
    if o.closeRequested then Visibility(o.island, false) else o.island
  }

  function Run(s: Island, es: seq<Event>): Island
    decreases |es|
  {
    if |es| == 0 then s else Run(HostStep(s, es[0]), es[1..])
  }

  /** What holds in every reachable state: `Error` is never entered, a
      recording is always on screen, processing always has its finish timer
      pending, and a visible complete island always has a close pending. */
  predicate Inv(s: Island) {
    && s.phase != Error
    && (s.phase == Recording ==> s.visible)
    && (s.phase == Processing ==> s.pendingFinish > 0)
    && (s.phase == Complete && s.visible ==> s.pendingClose > 0)
  }

  lemma InitialInv()
    ensures Inv(Initial())
  {
  }

  lemma HostStepPreservesInv(s: Island, e: Event)
    requires Inv(s)
    ensures Inv(HostStep(s, e))
  {
  }

  lemma {:induction false} RunPreservesInv(s: Island, es: seq<Event>)
    requires Inv(s)
    ensures Inv(Run(s, es))
    decreases |es|
  {
    if |es| > 0 {
      HostStepPreservesInv(s, es[0]);
      RunPreservesInv(HostStep(s, es[0]), es[1..]);
    }
  }

  /** No sequence of events leads the island into `Error`; the error view is
      declared and rendered but unreachable. */
  lemma NeverError(es: seq<Event>)
    ensures Run(Initial(), es).phase != Error
  {
    InitialInv();
    RunPreservesInv(Initial(), es);
  }

  /** Done moves a recording to processing; the pending finish then completes
      it with the sample text and schedules the close, and the close hides the
      island, returning it to `Idle`. */
  lemma DoneFinishClose(s: Island)
    requires Inv(s) && s.phase == Recording
    ensures var p := HostStep(s, DoneClick);
      && p.phase == Processing && p.duration == s.duration
      && var c := HostStep(p, FinishTimer);
      && c.phase == Complete && c.transcription == SampleTranscription && c.pendingClose > 0
      && var h := HostStep(c, CloseTimer);
      && h.phase == Idle && !h.visible
  {
  }

  /** Cancel ends a recording: `Idle`, hidden by the host, transcription untouched. */
  lemma CancelEndsRecording(s: Island)
    requires Inv(s) && s.phase == Recording
    ensures Step(s, CancelClick).closeRequested
    ensures var r := HostStep(s, CancelClick);
      r.phase == Idle && !r.visible && r.transcription == s.transcription && r.duration == s.duration
  {
  }

  function Ticks(k: nat): (es: seq<Event>)
    ensures |es| == k
    ensures forall i :: 0 <= i < k ==> es[i] == Tick
  {
    if k == 0 then [] else [Tick] + Ticks(k - 1)
  }

  /** While recording, the duration counts exactly the ticks. */
  lemma {:induction false} TicksCountSeconds(s: Island, k: nat)
    requires s.phase == Recording
    ensures Run(s, Ticks(k)).phase == Recording
    decreases k
    ensures Run(s, Ticks(k)).duration == s.duration + k
  {
    if k > 0 {
      assert Ticks(k)[1..] == Ticks(k - 1);
      TicksCountSeconds(s.(duration := s.duration + 1), k - 1);
    }
  }

  /** Outside `Recording` ticks change nothing. */
  lemma {:induction false} TicksFrozen(s: Island, k: nat)
    requires s.phase != Recording
    ensures Run(s, Ticks(k)) == s
    decreases k
  {
    if k > 0 {
      assert Ticks(k)[1..] == Ticks(k - 1);
      TicksFrozen(s, k - 1);
    }
  }

  /** Because the timers are never cleared, a finish timer scheduled by a
      hidden session completes the next recording with the sample text. */
  lemma StaleFinishCompletesNextSession()
    ensures var s := Run(Initial(), [SetVisible(true), DoneClick, SetVisible(false), SetVisible(true)]);
      s.phase == Recording && HostStep(s, FinishTimer).phase == Complete
  {
  }

  // ---- the same island with its timers cancelled on every show and hide ----

  /** A visibility change that also cancels both pending timeouts, as a
      cleanup of the `visible` effect would. */
  function ClearingVisibility(s: Island, v: bool): (r: Island)
    ensures v == s.visible ==> r == s
    ensures v != s.visible ==> r == Visibility(s, v).(pendingFinish := 0, pendingClose := 0)
  {
    if v == s.visible then s else Visibility(s, v).(pendingFinish := 0, pendingClose := 0)
  }

  function FixedStep(s: Island, e: Event): Outcome {
    match e
    case SetVisible(v) => Outcome(ClearingVisibility(s, v), false)
    case _ => Step(s, e)
  }

  function FixedHostStep(s: Island, e: Event): Island {
    var o := FixedStep(s, e);
    if o.closeRequested then ClearingVisibility(o.island, false) else o.island
  }

  function FixedRun(s: Island, es: seq<Event>): Island
    decreases |es|
  {
    if |es| == 0 then s else FixedRun(FixedHostStep(s, es[0]), es[1..])
  }

  /** With cancellation, a hidden island is idle, a finish timer is pending
      exactly while processing, and a close timer only while a complete
      island is on screen. */
  predicate FixedInv(s: Island) {
    && Inv(s)
    && (!s.visible ==> s.phase == Idle)
    && s.pendingFinish <= 1 && s.pendingClose <= 1
    && (s.pendingFinish > 0 <==> s.phase == Processing)
    && (s.pendingClose > 0 ==> s.phase == Complete && s.visible)
  }

  lemma FixedHostStepPreservesInv(s: Island, e: Event)
    requires FixedInv(s)
    ensures FixedInv(FixedHostStep(s, e))
  {
  }

  lemma {:induction false} FixedRunPreservesInv(s: Island, es: seq<Event>)
    requires FixedInv(s)
    ensures FixedInv(FixedRun(s, es))
    decreases |es|
  {
    if |es| > 0 {
      FixedHostStepPreservesInv(s, es[0]);
      FixedRunPreservesInv(FixedHostStep(s, es[0]), es[1..]);
    }
  }

  /** With cancellation, only a session in `Processing` is completed, only by
      its own finish timer, and a recording is never cut short by a timer. */
  lemma FixedOnlyProcessingCompletes(es: seq<Event>, e: Event)
    ensures var s := FixedRun(Initial(), es);
      && (FixedHostStep(s, e).phase == Complete && s.phase != Complete ==>
            s.phase == Processing && e == FinishTimer)
      && (s.phase == Recording && (e == FinishTimer || e == CloseTimer) ==> FixedHostStep(s, e) == s)
  {
    FixedRunPreservesInv(Initial(), es);
  }

  /** The session of `StaleFinishCompletesNextSession`, with cancellation: the
      late timer finds nothing pending and the new recording goes on. */
  lemma FixedStaleFinishIgnored()
    ensures var s := FixedRun(Initial(), [SetVisible(true), DoneClick, SetVisible(false), SetVisible(true)]);
      s.phase == Recording && FixedHostStep(s, FinishTimer) == s
  {
  }

  /** `formatDuration`: whole minutes, a colon, and the seconds within the
      minute padded to two digits. */
  function FormatDuration(seconds: nat): (r: string)
    ensures |r| >= 4 && r[|r| - 3] == ':'
    ensures AllDigits(r[..|r| - 3]) && AllDigits(r[|r| - 2..])
  {
    var secs := Decimal(seconds % 60);
    Decimal(seconds / 60) + ":" + (if seconds % 60 < 10 then "0" + secs else secs)
  }

  /** Reads an `m:ss` display back into seconds. */
  function ParseDuration(t: string): Option<nat> {
    if |t| >= 4 && t[|t| - 3] == ':' && AllDigits(t[..|t| - 3]) && AllDigits(t[|t| - 2..])
       && DecimalValue(t[|t| - 2..]) < 60
    then Some(DecimalValue(t[..|t| - 3]) * 60 + DecimalValue(t[|t| - 2..]))
    else None
  }

  /** The display denotes minutes `seconds / 60` and seconds `seconds % 60`
      (below 60, two digits), so reading it back gives the duration. */
  lemma FormatDurationRoundTrip(seconds: nat)
    ensures var t := FormatDuration(seconds);
      && DecimalValue(t[..|t| - 3]) == seconds / 60
      && DecimalValue(t[|t| - 2..]) == seconds % 60
      && ParseDuration(t) == Some(seconds)
  {
    var t := FormatDuration(seconds);
    var m := Decimal(seconds / 60);
    var secs := Decimal(seconds % 60);
    var pad := if seconds % 60 < 10 then "0" + secs else secs;
    assert t == m + ":" + pad;
    assert |pad| == 2;
    assert t[..|t| - 3] == m;
    assert t[|t| - 2..] == pad;
    DecimalRoundTrip(seconds / 60);
    DecimalRoundTrip(seconds % 60);
    if seconds % 60 < 10 {
      assert pad[..1] == "0";
      assert pad[..|pad| - 1] == "0";
    } else {
      assert pad == secs;
    }
  }
}

=== FILE: preset_flow.dfy ===
/** The presets window wired to the main process: a form submission goes
    through `Submit`, then `createPreset` or `updatePreset`, then `handleSave`;
    a card's delete request goes through `deletePreset`, then `handleDelete`. */
module PresetFlow {
  import opened Common
  import opened Text
  import opened Entities
  import opened Presets
  import Store

  /** The window and the database after a form submission, when the answer
      arrives before any other window event. `id` and `now` are what the
      database would assign to a new row. */
  function SubmitForm(w: Window, f: Form, db: Store.Db, id: string, now: int): (Window, Store.Db) {
    match Submit(f)
    case None => (w, db)
    case Some(input) =>
      if w.editing.Some? then
        match Store.UpdatePreset(db, w.editing.value.id, input)
        case None => (Save(w, w.editing, None), db)
        case Some(r) => (Save(w, w.editing, Some(r.1)), r.0)
      else
        match Store.CreatePreset(db, input, id, now)
        case None => (Save(w, w.editing, None), db)
        case Some(r) => (Save(w, w.editing, Some(r.1)), r.0)
  }

  /** Creating through the form appends one preset that is not built in,
      whose name and prompt are the trimmed fields, and stores the same row;
      the built-in presets of the store are unchanged. */
  lemma CreateThroughForm(w: Window, f: Form, db: Store.Db, id: string, now: int)
    requires w.editing.None? && !SubmitDisabled(f) && id !in db.presets
    ensures var (w', db') := SubmitForm(w, f, db, id, now);
      && |w'.presets| == |w.presets| + 1
      && w'.presets[..|w.presets|] == w.presets
      && w'.presets[|w.presets|] == Preset(id, Trim(f.name), Trim(f.prompt), false)
      && id in db'.presets && !db'.presets[id].isBuiltin
      && Store.BuiltinIds(db') == Store.BuiltinIds(db)
      && !w'.showForm && w'.editing.None?
  {
    SubmitSpec(f);
  }

  /** Editing through the form keeps the edited preset's built-in flag, both in
      the window's list and in the store; other list entries are unchanged. */
  lemma EditThroughForm(w: Window, f: Form, db: Store.Db, id: string, now: int)
    requires w.editing.Some? && !SubmitDisabled(f) && w.editing.value.id in db.presets
    ensures var e := w.editing.value;
      var (w', db') := SubmitForm(w, f, db, id, now);
      && |w'.presets| == |w.presets|
      && (forall i :: 0 <= i < |w.presets| && w.presets[i].id != e.id ==> w'.presets[i] == w.presets[i])
      && (forall i :: 0 <= i < |w.presets| && w.presets[i].id == e.id ==>
            w'.presets[i] == Preset(e.id, Trim(f.name), Trim(f.prompt), db.presets[e.id].isBuiltin))
      && db'.presets[e.id].isBuiltin == db.presets[e.id].isBuiltin
      && Store.BuiltinIds(db') == Store.BuiltinIds(db)
  {
    SubmitSpec(f);
    var e := w.editing.value;
    var input := PresetInput(Trim(f.name), Trim(f.prompt));
    assert Submit(f) == Some(input);
    var r := Store.UpdatePreset(db, e.id, input);
    assert r.Some?;
    var updated := Preset(e.id, input.name, input.prompt, db.presets[e.id].isBuiltin);
    assert r.value.1 == updated;
    var res := SubmitForm(w, f, db, id, now);
    assert res == (Save(w, w.editing, Some(updated)), r.value.0);
    assert res.0.presets == ReplaceById(w.presets, e.id, updated);
    assert res.1.presets[e.id].isBuiltin == db.presets[e.id].isBuiltin;
  }

  /** A blank field saves nothing anywhere. */
  lemma BlankSubmitChangesNothing(w: Window, f: Form, db: Store.Db, id: string, now: int)
    requires SubmitDisabled(f)
    ensures SubmitForm(w, f, db, id, now) == (w, db)
  {
    SubmitSpec(f);
  }

  /** A delete request from a card, for a preset the store holds with the same
      flag, removes it from the store and from the list alike: the card never
      asks to delete a built-in preset, which the store would keep. */
  lemma CardDeleteAgrees(w: Window, hovered: bool, p: Preset, db: Store.Db)
    requires p.id in db.presets && db.presets[p.id].isBuiltin == p.isBuiltin
    requires PressCard(hovered, p, DeleteAction).Some?
    ensures p.id !in Store.DeletePreset(db, p.id).presets
    ensures forall i :: 0 <= i < |DeletePresetView(w, p.id, true).presets| ==>
      DeletePresetView(w, p.id, true).presets[i].id != p.id
  {
  }
}

=== FILE: presets.dfy ===
/** The presets window and its parts: the card that shows one preset, the
    form that creates or edits one, and the window's list and form state.
    Every call to the main process is an input: its result, or `None` when
    the call rejects. */
module Presets {
  import opened Common
  import opened Text
  import opened Seqs
  import opened Entities

  // ---- preset-card ----

  const PromptPreviewLength: nat := 80

  /** The prompt as the card shows it. */
  function ShownPrompt(p: Preset): string {
    Truncate(p.prompt, PromptPreviewLength)
  }

  lemma ShownPromptSpec(p: Preset)
    ensures |p.prompt| <= 80 ==> ShownPrompt(p) == p.prompt
    ensures |p.prompt| > 80 ==> ShownPrompt(p) == p.prompt[..80] + "..."
    ensures |ShownPrompt(p)| <= 83
  {
  }

  datatype CardAction = EditAction | DeleteAction

  /** The buttons a card renders: none unless hovered, and no delete button
      for a built-in preset. The lock badge is `p.isBuiltin` itself. */
  function CardActions(hovered: bool, p: Preset): (acts: set<CardAction>)
    ensures EditAction in acts <==> hovered
    ensures DeleteAction in acts <==> hovered && !p.isBuiltin
    ensures p.isBuiltin ==> DeleteAction !in acts
  {
    if !hovered then {}
    else if p.isBuiltin then {EditAction}
    else {EditAction, DeleteAction}
  }

  datatype CardRequest = EditRequest(preset: Preset) | DeleteRequest(id: string)

  /** Pressing a rendered button: edit passes the whole preset, delete its id. */
  function PressCard(hovered: bool, p: Preset, a: CardAction): (q: Option<CardRequest>)
    ensures q.Some? <==> a in CardActions(hovered, p)
    ensures q.Some? && a.EditAction? ==> q.value == EditRequest(p)
    ensures q.Some? && a.DeleteAction? ==> q.value == DeleteRequest(p.id) && !p.isBuiltin
  {
    if a in CardActions(hovered, p) then
      Some(if a.EditAction? then EditRequest(p) else DeleteRequest(p.id))
    else None
  }

  // ---- preset-form ----

  datatype Form = Form(name: string, prompt: string, isEditing: bool)

  /** The form opened for a preset (editing) or for none (creating). */
  function OpenForm(preset: Option<Preset>): (f: Form)
    ensures f.isEditing <==> preset.Some?
    ensures preset.Some? ==> f.name == preset.value.name && f.prompt == preset.value.prompt
    ensures preset.None? ==> f.name == "" && f.prompt == ""
  {
    match preset
    case Some(p) => Form(p.name, p.prompt, true)
    case None => Form("", "", false)
  }

  /** The submit button's `disabled` condition. */
  predicate SubmitDisabled(f: Form) {
    Trim(f.name) == [] || Trim(f.prompt) == []
  }

  /** `handleSubmit`: the trimmed fields are passed to `onSave`, unless one of
      them trims to nothing, in which case nothing is saved. */
  function Submit(f: Form): Option<PresetInput> {
    if Trim(f.name) == [] || Trim(f.prompt) == [] then None
    else Some(PresetInput(Trim(f.name), Trim(f.prompt)))
  }

  /** Submission is refused exactly when the button is disabled, which is
      exactly when a field is all white space; a saved field is non-empty,
      already trimmed, and a slice of what was typed with only white space cut. */
  lemma SubmitSpec(f: Form)
    ensures Submit(f).None? <==> SubmitDisabled(f)
    ensures Submit(f).None? <==> Blank(f.name) || Blank(f.prompt)
    ensures Submit(f).Some? ==>
      var d := Submit(f).value;
      && d.name != [] && d.prompt != []
      && Trimmed(d.name) && Trimmed(d.prompt)
      && Trim(d.name) == d.name && Trim(d.prompt) == d.prompt
      && (exists i, j :: 0 <= i <= j <= |f.name| && d.name == f.name[i..j]
            && Blank(f.name[..i]) && Blank(f.name[j..]))
      && (exists i, j :: 0 <= i <= j <= |f.prompt| && d.prompt == f.prompt[i..j]
            && Blank(f.prompt[..i]) && Blank(f.prompt[j..]))
  {
    TrimEmptyIffBlank(f.name);
    TrimEmptyIffBlank(f.prompt);
    TrimIdempotent(f.name);
    TrimIdempotent(f.prompt);
  }

  // ---- presets-window ----

  datatype Window = Window(presets: seq<Preset>, loading: bool, showForm: bool, editing: Option<Preset>)

  function InitialWindow(): Window {
    Window([], true, false, None)
  }

  /** The load on mount: the loaded list, or on failure the empty initial list;
      loading ends either way. */
  function Loaded(w: Window, result: Option<seq<Preset>>): (w': Window)
    ensures !w'.loading
    ensures result.Some? ==> w'.presets == result.value
    ensures result.None? ==> w'.presets == w.presets
    ensures w'.showForm == w.showForm && w'.editing == w.editing
  {
    match result
    case Some(ps) => w.(presets := ps, loading := false)
    case None => w.(loading := false)
  }

  /** `handleAddNew`. */
  function AddNew(w: Window): (w': Window)
    ensures w'.showForm && w'.editing.None? && w'.presets == w.presets
  {
    w.(editing := None, showForm := true)
  }

  /** `handleEdit`. */
  function EditPreset(w: Window, p: Preset): (w': Window)
    ensures w'.showForm && w'.editing == Some(p) && w'.presets == w.presets
  {
    w.(editing := Some(p), showForm := true)
  }

  /** `handleCancel`. */
  function CancelForm(w: Window): (w': Window)
    ensures !w'.showForm && w'.editing.None? && w'.presets == w.presets && w'.loading == w.loading
  {
    w.(showForm := false, editing := None)
  }

  function WithoutId(id: string): Preset -> bool {
    (p: Preset) => p.id != id
  }

  /** `handleDelete`: the entries with that id leave the list once the call
      succeeds; a failed call changes nothing. */
  function DeletePresetView(w: Window, id: string, succeeded: bool): Window {
    if succeeded then w.(presets := Filter(w.presets, WithoutId(id))) else w
  }

  lemma DeletePresetViewSpec(w: Window, id: string, succeeded: bool, p: Preset)
    ensures !succeeded ==> DeletePresetView(w, id, succeeded) == w
    ensures succeeded ==>
      multiset(DeletePresetView(w, id, succeeded).presets)[p] == if p.id == id then 0 else multiset(w.presets)[p]
    ensures IsSubseq(DeletePresetView(w, id, succeeded).presets, w.presets)
  {
    FilterCounts(w.presets, WithoutId(id), p);
    FilterIsSubseq(w.presets, WithoutId(id));
    if !succeeded {
      SubseqRefl(w.presets);
    }
  }

  /** `prev.map(p => p.id === id ? updated : p)`. */
  function ReplaceById(ps: seq<Preset>, id: string, updated: Preset): (r: seq<Preset>)
    ensures |r| == |ps|
    ensures forall i :: 0 <= i < |ps| ==> r[i] == if ps[i].id == id then updated else ps[i]
  {
    if |ps| == 0 then []
    else [if ps[0].id == id then updated else ps[0]] + ReplaceById(ps[1..], id, updated)
  }

  /** `handleSave` given the preset being edited when the form was submitted,
      which its closure captured, and the main process's answer: when a preset
      was being edited, the entries with its id are replaced; otherwise the new
      preset is appended. Success closes whatever form is open; failure changes
      nothing. */
  function Save(w: Window, target: Option<Preset>, result: Option<Preset>): (w': Window)
    ensures result.None? ==> w' == w
    ensures result.Some? && target.Some? ==> w'.presets == ReplaceById(w.presets, target.value.id, result.value)
    ensures result.Some? && target.None? ==> w'.presets == w.presets + [result.value]
    ensures result.Some? ==> !w'.showForm && w'.editing.None? && w'.loading == w.loading
  {
    match result
    case None => w
    case Some(p) =>
      var ps := if target.Some? then ReplaceById(w.presets, target.value.id, p) else w.presets + [p];
      w.(presets := ps, showForm := false, editing := None)
  }

  /** Replacing by id keeps the length, the order and every entry with another
      id; replacing twice with the same preset is replacing once. */
  lemma ReplaceByIdSpec(ps: seq<Preset>, id: string, updated: Preset)
    ensures forall i :: 0 <= i < |ps| && ps[i].id != id ==> ReplaceById(ps, id, updated)[i] == ps[i]
    ensures updated.id == id ==> ReplaceById(ReplaceById(ps, id, updated), id, updated) == ReplaceById(ps, id, updated)
    ensures (forall i :: 0 <= i < |ps| ==> ps[i].id != id) ==> ReplaceById(ps, id, updated) == ps
  {
  }

  datatype WindowEvent =
    | LoadEvent(loaded: Option<seq<Preset>>)
    | AddNewEvent
    | EditEvent(preset: Preset)
    | DeleteEvent(id: string, succeeded: bool)
    | SaveEvent(target: Option<Preset>, saved: Option<Preset>)
    | CancelEvent

  function ApplyWindow(w: Window, e: WindowEvent): Window {
    match e
    case LoadEvent(result) => Loaded(w, result)
    case AddNewEvent => AddNew(w)
    case EditEvent(p) => EditPreset(w, p)
    case DeleteEvent(id, ok) => DeletePresetView(w, id, ok)
    case SaveEvent(target, result) => Save(w, target, result)
    case CancelEvent => CancelForm(w)
  }

  function RunWindow(w: Window, es: seq<WindowEvent>): Window
    decreases |es|
  {
    if |es| == 0 then w else RunWindow(ApplyWindow(w, es[0]), es[1..])
  }

  /** A preset is only ever being edited inside an open form. */
  predicate WindowInv(w: Window) {
    w.editing.Some? ==> w.showForm
  }

  /** The form's Cancel stays usable while a save is pending. An edit that
      is cancelled, or followed by the editing of another preset, before the
      answer arrives still replaces the preset that was submitted, never
      appends a second entry with its id, and closes the form. */
  lemma SaveAfterCancelReplacesSubmitted(w: Window, p: Preset, q: Preset, u: Preset)
    ensures var w' := RunWindow(w, [EditEvent(p), CancelEvent, SaveEvent(Some(p), Some(u))]);
      w'.presets == ReplaceById(w.presets, p.id, u) && |w'.presets| == |w.presets| && !w'.showForm
    ensures var w' := RunWindow(w, [EditEvent(p), CancelEvent, EditEvent(q), SaveEvent(Some(p), Some(u))]);
      w'.presets == ReplaceById(w.presets, p.id, u) && !w'.showForm && w'.editing.None?
  {
    var save := SaveEvent(Some(p), Some(u));
    var w1 := EditPreset(w, p);
    var w2 := CancelForm(w1);
    assert RunWindow(w, [EditEvent(p), CancelEvent, save]) == RunWindow(w1, [CancelEvent, save]);
    assert RunWindow(w1, [CancelEvent, save]) == RunWindow(w2, [save]);
    assert RunWindow(w2, [save]) == RunWindow(Save(w2, Some(p), Some(u)), []);
    var w3 := EditPreset(w2, q);
    assert RunWindow(w, [EditEvent(p), CancelEvent, EditEvent(q), save]) == RunWindow(w1, [CancelEvent, EditEvent(q), save]);
    assert RunWindow(w1, [CancelEvent, EditEvent(q), save]) == RunWindow(w2, [EditEvent(q), save]);
    assert RunWindow(w2, [EditEvent(q), save]) == RunWindow(w3, [save]);
    assert RunWindow(w3, [save]) == RunWindow(Save(w3, Some(p), Some(u)), []);
  }

  lemma {:induction false} WindowInvHolds(w: Window, es: seq<WindowEvent>)
    requires WindowInv(w)
    ensures WindowInv(RunWindow(w, es))
    decreases |es|
  {
    if |es| > 0 {
      WindowInvHolds(ApplyWindow(w, es[0]), es[1..]);
    }
  }
}

=== FILE: recorder.dfy ===
/** The audio recorder hook: the state record `{isRecording, audioData, error}`
    shown to components, the chunk buffer the data handler fills, every
    encoder the hook has constructed and every microphone stream it has
    acquired. Device access and the encoder are abstract: `Start` is told how
    acquisition went, and `Chunk` is an encoder data event. */
module Recorder {
  import opened Common
  import opened Seqs

  /** `encoders[i]` holds while the i-th constructed `MediaRecorder` is not
      'inactive'; `streams[i]` holds while the tracks of the i-th acquired
      stream are live. `mediaRecorderRef` and `streamRef` always name the
      newest of each, since every construction and acquisition assigns them. */
  datatype Recorder = Recorder(
    isRecording: bool,
    audioData: Option<Bytes>,
    error: Option<string>,
    chunks: seq<Bytes>,
    encoders: seq<bool>,
    streams: seq<bool>)

  /** The part of the state the hook returns to components. */
  datatype View = View(isRecording: bool, audioData: Option<Bytes>, error: Option<string>)

  function Visible(r: Recorder): View {
    View(r.isRecording, r.audioData, r.error)
  }

  const MicrophoneFailure: string := "Failed to access microphone"

  function Initial(): Recorder {
    Recorder(false, None, None, [], [], [])
  }

  /** `mediaRecorderRef.current` exists and its state is not 'inactive'. */
  predicate Running(r: Recorder) {
    |r.encoders| > 0 && r.encoders[|r.encoders| - 1]
  }

  /** The tracks of `streamRef.current` are live. */
  predicate Listening(r: Recorder) {
    |r.streams| > 0 && r.streams[|r.streams| - 1]
  }

  /** Stopping through a ref: the newest entry is off afterwards and every
      earlier one is as it was. */
  predicate StopsOnlyNewest(s: seq<bool>, s': seq<bool>) {
    && |s'| == |s|
    && (|s| > 0 ==> !s'[|s| - 1])
    && (forall i :: 0 <= i < |s| - 1 ==> s'[i] == s[i])
  }

  function StopNewest(s: seq<bool>): (s': seq<bool>)
    ensures StopsOnlyNewest(s, s')
  {
    if |s| == 0 then s else s[|s| - 1 := false]
  }

  /** No entry is on. */
  predicate AllOff(s: seq<bool>) {
    forall i :: 0 <= i < |s| ==> !s[i]
  }

  /** How starting went: the stream and encoder were obtained and the encoder
      started; the device request threw; the device was granted and the
      encoder constructor threw; or the encoder was constructed and became
      the current one but `start(100)` threw. */
  datatype StartOutcome =
    | Granted
    | DeviceRefused(thrown: Thrown)
    | EncoderRefused(thrown: Thrown)
    | StartThrew(thrown: Thrown)

  /** The synchronous part of `startRecording` before the device request is
      awaited: error and audio data are cleared, and nothing else changes. */
  function StartBegin(r: Recorder): (r': Recorder)
    ensures r'.error == None && r'.audioData == None && r'.isRecording == r.isRecording
    ensures r'.chunks == r.chunks && r'.encoders == r.encoders && r'.streams == r.streams
  {
    r.(error := None, audioData := None)
  }

  /** The rest of `startRecording`, once the device request has settled. A
      granted stream becomes the current one and the buffer is emptied; on
      success a fresh encoder runs, becomes the current one and `isRecording`
      is set. An earlier encoder or stream is neither stopped nor released,
      and whatever happened while the request was pending is not looked at.
      On failure `error` holds the failure message and `isRecording` is left
      as it was. */
  function StartEnd(r: Recorder, outcome: StartOutcome): (r': Recorder)
    ensures r'.audioData == r.audioData
    ensures outcome.Granted? ==> r'.isRecording && r'.error == r.error && r'.chunks == []
    ensures outcome.Granted? ==> r'.encoders == r.encoders + [true] && r'.streams == r.streams + [true]
    ensures !outcome.Granted? ==> r'.isRecording == r.isRecording
    ensures outcome.DeviceRefused? || outcome.EncoderRefused? ==> r'.encoders == r.encoders
    ensures !outcome.Granted? ==> r'.error == Some(MessageOr(outcome.thrown, MicrophoneFailure))
    ensures outcome.DeviceRefused? ==> r'.chunks == r.chunks && r'.streams == r.streams
    ensures outcome.EncoderRefused? ==> r'.chunks == [] && r'.streams == r.streams + [true]
    ensures outcome.StartThrew? ==> r'.chunks == [] && r'.streams == r.streams + [true]
    ensures outcome.StartThrew? ==> r'.encoders == r.encoders + [false] && !Running(r')
  {
    match outcome
    case Granted =>
      r.(chunks := [], streams := r.streams + [true], encoders := r.encoders + [true], isRecording := true)
    case DeviceRefused(thrown) =>
      r.(error := Some(MessageOr(thrown, MicrophoneFailure)))
    case EncoderRefused(thrown) =>
      r.(chunks := [], streams := r.streams + [true], error := Some(MessageOr(thrown, MicrophoneFailure)))
    case StartThrew(thrown) =>
      r.(chunks := [], streams := r.streams + [true], encoders := r.encoders + [false],
         error := Some(MessageOr(thrown, MicrophoneFailure)))
  }

  /** `startRecording` when nothing else happens while the device request is
      pending. */
  function Start(r: Recorder, outcome: StartOutcome): (r': Recorder)
    ensures r'.audioData == None
    ensures outcome.Granted? ==> r'.isRecording && r'.error == None && r'.chunks == []
    ensures outcome.Granted? ==> r'.encoders == r.encoders + [true] && r'.streams == r.streams + [true]
    ensures !outcome.Granted? ==> r'.isRecording == r.isRecording
    ensures !outcome.Granted? ==> r'.error == Some(MessageOr(outcome.thrown, MicrophoneFailure))
  {
    StartEnd(StartBegin(r), outcome)
  }

  /** `ondataavailable`: a non-empty chunk is appended whichever encoder
      delivered it and whatever state that encoder is in; an empty one is
      dropped. */
  function Chunk(r: Recorder, data: Bytes): (r': Recorder)
    ensures |data| > 0 ==> r'.chunks == r.chunks + [data]
    ensures |data| == 0 ==> r'.chunks == r.chunks
    ensures r' == r.(chunks := r'.chunks)
  {
    if |data| > 0 then r.(chunks := r.chunks + [data]) else r
  }

  /** `stopRecording`. Without a running current encoder it resolves to null
      and only clears `isRecording`; otherwise it stops that encoder and the
      current stream's tracks, leaving every earlier one as it was, and
      resolves to the chunks concatenated in order, which also become
      `audioData`. */
  function Stop(r: Recorder): (res: (Recorder, Option<Bytes>))
    ensures !res.0.isRecording
    ensures !Running(r) ==> res.1 == None && res.0 == r.(isRecording := false)
    ensures Running(r) ==> res.1 == Some(Flatten(r.chunks)) && res.0.audioData == res.1 && res.0.error == r.error
    ensures Running(r) ==> StopsOnlyNewest(r.encoders, res.0.encoders) && StopsOnlyNewest(r.streams, res.0.streams)
    ensures res.0.chunks == r.chunks
  {
    if !Running(r) then (r.(isRecording := false), None)
    else
      var bytes := Flatten(r.chunks);
      (r.(isRecording := false, audioData := Some(bytes), encoders := StopNewest(r.encoders),
          streams := StopNewest(r.streams)), Some(bytes))
  }

  /** `cancelRecording`: stops the current encoder if it runs and the current
      stream's tracks, empties the buffer and resets the visible state to the
      initial one. Earlier encoders and streams are left as they were. */
  function Cancel(r: Recorder): (r': Recorder)
    ensures Visible(r') == Visible(Initial()) && r'.chunks == []
    ensures StopsOnlyNewest(r.encoders, r'.encoders) && StopsOnlyNewest(r.streams, r'.streams)
  {
    Recorder(false, None, None, [], if Running(r) then StopNewest(r.encoders) else r.encoders,
             StopNewest(r.streams))
  }

  /** The microphone goes away (the device is unplugged or permission is
      revoked): every stream's tracks end, and every encoder recording from
      them goes inactive on its own. The hook is not told; nothing else
      changes. */
  function TracksEnded(r: Recorder): (r': Recorder)
    ensures AllOff(r'.encoders) && AllOff(r'.streams)
    ensures |r'.encoders| == |r.encoders| && |r'.streams| == |r.streams|
    ensures Visible(r') == Visible(r) && r'.chunks == r.chunks
  {
    r.(encoders := seq(|r.encoders|, i => false), streams := seq(|r.streams|, i => false))
  }

  /** The operations and the events the hook sees. `startRecording` is two
      events, since anything may happen while the device request is pending. */
  datatype Event =
    | BeginEvent
    | EndEvent(outcome: StartOutcome)
    | ChunkEvent(data: Bytes)
    | StopEvent
    | CancelEvent
    | TracksEndedEvent

  function Apply(r: Recorder, e: Event): Recorder {
    match e
    case BeginEvent => StartBegin(r)
    case EndEvent(o) => StartEnd(r, o)
    case ChunkEvent(data) => Chunk(r, data)
    case StopEvent => Stop(r).0
    case CancelEvent => Cancel(r)
    case TracksEndedEvent => TracksEnded(r)
  }

  /** A running current encoder implies live current tracks. */
  predicate Inv(r: Recorder) {
    Running(r) ==> Listening(r)
  }

  lemma ApplyPreservesInv(r: Recorder, e: Event)
    requires Inv(r)
    ensures Inv(Apply(r, e))
  {
  }

  /** Recording implies a running current encoder. */
  predicate RecordingRuns(r: Recorder) {
    r.isRecording ==> Running(r)
  }

  /** There are two ways to be left recording without a running current
      encoder, both during a recording. A start whose `start(100)` throws
      makes the new, inactive encoder the current one and leaves
      `isRecording` set. The microphone going away stops the encoder without
      the hook being told. */
  lemma RecordingWithoutEncoder(r: Recorder, e: Event)
    requires RecordingRuns(r)
    ensures !RecordingRuns(Apply(r, e)) <==>
      r.isRecording && ((e.EndEvent? && e.outcome.StartThrew?) || e.TracksEndedEvent?)
  {
  }

  /** A cancel, or a stop, while the device request is pending does not stop
      the recording: once the request is granted, the start installs a
      running encoder and sets `isRecording` again. */
  lemma CancelDuringPromptUndone(r: Recorder)
    ensures var r' := StartEnd(Cancel(StartBegin(r)), Granted);
      r'.isRecording && Running(r') && Listening(r')
    ensures var r' := StartEnd(Stop(StartBegin(r)).0, Granted);
      r'.isRecording && Running(r') && Listening(r')
  {
  }

  /** After the microphone goes away during a recording, the hook still
      reports recording, and a stop finds no running encoder: it resolves to
      null although the buffer holds the captured chunks, so the audio is
      never delivered. */
  lemma TracksEndedLosesAudio(r: Recorder)
    requires r.isRecording
    ensures TracksEnded(r).isRecording
    ensures Stop(TracksEnded(r)).1 == None
    ensures Stop(TracksEnded(r)).0.chunks == r.chunks
    ensures Stop(TracksEnded(r)).0.audioData == r.audioData
  {
  }

  /** A start that throws at `start(100)` during a recording: a stop that
      follows resolves to null and stops nothing, so both encoders' streams
      stay live and the first encoder keeps recording. */
  lemma StartThrowWhileRecording(t: Thrown)
    ensures Start(Start(Initial(), Granted), StartThrew(t)).isRecording
    ensures Stop(Start(Start(Initial(), Granted), StartThrew(t))).1 == None
    ensures Stop(Start(Start(Initial(), Granted), StartThrew(t))).0.encoders == [true, false]
    ensures Stop(Start(Start(Initial(), Granted), StartThrew(t))).0.streams == [true, true]
  {
  }

  function Feed(r: Recorder, data: seq<Bytes>): Recorder
    decreases |data|
  {
    if |data| == 0 then r else Chunk(Feed(r, data[..|data| - 1]), data[|data| - 1])
  }

  /** Data events only grow the buffer: it is the old buffer followed by the
      non-empty arriving chunks, in arrival order, and nothing else changes. */
  lemma {:induction false} FeedAppends(r: Recorder, data: seq<Bytes>)
    ensures Feed(r, data) == r.(chunks := r.chunks + Filter(data, NonEmpty))
    decreases |data|
  {
    if |data| > 0 {
      var init := data[..|data| - 1];
      var last := data[|data| - 1];
      FeedAppends(r, init);
      assert data == init + [last];
      FilterSnoc(init, last, NonEmpty);
    }
  }

  /** A whole capture: after a successful start and any chunk events, stop
      yields exactly the arriving bytes in order; empty chunks lose nothing. */
  lemma CaptureYieldsArrivedBytes(r: Recorder, data: seq<Bytes>)
    ensures Stop(Feed(Start(r, Granted), data)).1 == Some(Flatten(data))
    ensures Stop(Feed(Start(r, Granted), data)).0.audioData == Some(Flatten(data))
  {
    var started := Start(r, Granted);
    FeedAppends(started, data);
    assert started.chunks + Filter(data, NonEmpty) == Filter(data, NonEmpty);
    DropEmptyChunks(data);
  }

  /** Stopping twice: the second stop resolves to null and does not fail. */
  lemma SecondStopIsNull(r: Recorder)
    ensures Stop(Stop(r).0).1 == None
    ensures !Stop(Stop(r).0).0.isRecording
  {
  }

  /** The final data event that `stop()` queues during a cancel lands in the
      buffer the cancel has just emptied. It is harmless: a later stop finds
      no running encoder and resolves to null, and a later start empties the
      buffer again. */
  lemma FlushAfterCancel(r: Recorder, data: Bytes)
    requires |data| > 0
    ensures Chunk(Cancel(r), data).chunks == [data]
    ensures Stop(Chunk(Cancel(r), data)).1 == None
    ensures Start(Chunk(Cancel(r), data), Granted).chunks == []
  {
  }

  /** As written, a second start while recording leaves the first encoder
      and the first stream running, and neither cancel nor stop reaches them
      afterwards: only the refs' current objects are stopped. */
  lemma DoubleStartLeaks()
    ensures Cancel(Start(Start(Initial(), Granted), Granted)).encoders == [true, false]
    ensures Cancel(Start(Start(Initial(), Granted), Granted)).streams == [true, false]
    ensures Stop(Start(Start(Initial(), Granted), Granted)).0.encoders == [true, false]
    ensures Stop(Start(Start(Initial(), Granted), Granted)).0.streams == [true, false]
  {
  }

  /** What `cancelRecording` stops: the current encoder if it runs and the
      current stream's tracks; nothing else changes. */
  function Release(r: Recorder): (r': Recorder)
    ensures StopsOnlyNewest(r.encoders, r'.encoders) && StopsOnlyNewest(r.streams, r'.streams)
    ensures r'.(encoders := r.encoders, streams := r.streams) == r
  {
    r.(encoders := if Running(r) then StopNewest(r.encoders) else r.encoders, streams := StopNewest(r.streams))
  }

  /** The end of a `startRecording` that first releases the current encoder
      and stream, as `cancelRecording` does, and then goes on as before. */
  function ReleasingEnd(r: Recorder, outcome: StartOutcome): (r': Recorder)
    ensures outcome.Granted? ==> r'.isRecording && r'.chunks == [] && Running(r')
    ensures !outcome.Granted? ==> r'.isRecording == r.isRecording && !Running(r')
    ensures |r.encoders| <= |r'.encoders| && |r.streams| <= |r'.streams|
    ensures forall i :: 0 <= i < |r.encoders| - 1 ==> r'.encoders[i] == r.encoders[i]
    ensures forall i :: 0 <= i < |r.streams| - 1 ==> r'.streams[i] == r.streams[i]
    ensures |r.encoders| > 0 ==> !r'.encoders[|r.encoders| - 1]
    ensures |r.streams| > 0 ==> !r'.streams[|r.streams| - 1]
  {
    var released := Release(r);
    StartEnd(released, outcome)
  }

  function FixedApply(r: Recorder, e: Event): Recorder {
    match e
    case BeginEvent => StartBegin(r)
    case EndEvent(o) => ReleasingEnd(r, o)
    case ChunkEvent(data) => Chunk(r, data)
    case StopEvent => Stop(r).0
    case CancelEvent => Cancel(r)
    case TracksEndedEvent => TracksEnded(r)
  }

  function FixedRun(r: Recorder, es: seq<Event>): Recorder
    decreases |es|
  {
    if |es| == 0 then r else FixedApply(FixedRun(r, es[..|es| - 1]), es[|es| - 1])
  }

  /** At most the current encoder runs and at most the current stream is live. */
  predicate OnlyNewestLive(r: Recorder) {
    && (forall i :: 0 <= i < |r.encoders| - 1 ==> !r.encoders[i])
    && (forall i :: 0 <= i < |r.streams| - 1 ==> !r.streams[i])
  }

  lemma FixedApplyKeepsOnlyNewestLive(r: Recorder, e: Event)
    requires OnlyNewestLive(r)
    ensures OnlyNewestLive(FixedApply(r, e))
  {
  }

  lemma {:induction false} FixedRunOnlyNewestLive(es: seq<Event>)
    ensures OnlyNewestLive(FixedRun(Initial(), es))
    decreases |es|
  {
    if |es| > 0 {
      FixedRunOnlyNewestLive(es[..|es| - 1]);
      FixedApplyKeepsOnlyNewestLive(FixedRun(Initial(), es[..|es| - 1]), es[|es| - 1]);
    }
  }

  /** With releasing starts, a cancel after any sequence of events leaves no
      encoder running and no microphone stream live. */
  lemma FixedCancelReleasesAll(es: seq<Event>)
    ensures AllOff(Cancel(FixedRun(Initial(), es)).encoders)
    ensures AllOff(Cancel(FixedRun(Initial(), es)).streams)
  {
    FixedRunOnlyNewestLive(es);
  }

  /** With releasing starts, stopping a running recording after any sequence
      of events leaves no encoder running and no microphone stream live. */
  lemma FixedStopReleasesAll(es: seq<Event>)
    requires Running(FixedRun(Initial(), es))
    ensures AllOff(Stop(FixedRun(Initial(), es)).0.encoders)
    ensures AllOff(Stop(FixedRun(Initial(), es)).0.streams)
  {
    FixedRunOnlyNewestLive(es);
  }
}

=== FILE: seed.dfy ===
/** The database seed: each built-in preset is upserted by id, overwriting
    name, prompt and built-in flag of an existing row or creating the row. */
module Seed {
  import opened Store

  datatype BuiltinPreset = BuiltinPreset(id: string, name: string, prompt: string)

  const BeautifyPrompt: string :=
    "Fix grammar, punctuation, and spelling errors while preserving the original meaning and tone."
  const ConcisePrompt: string :=
    "Summarize the transcription into a brief, clear message while keeping the key points."
  const FormalPrompt: string :=
    "Rewrite the transcription in a formal, professional tone."

  /** `BUILTIN_PRESETS`. */
  function BuiltinPresets(): (ps: seq<BuiltinPreset>)
    ensures DistinctIds(ps)
  {
    [ BuiltinPreset("builtin-beautify", "Beautify", BeautifyPrompt),
      BuiltinPreset("builtin-concise", "Concise", ConcisePrompt),
      BuiltinPreset("builtin-formal", "Formal", FormalPrompt) ]
  }

  predicate DistinctIds(ps: seq<BuiltinPreset>) {
    forall i, j :: 0 <= i < j < |ps| ==> ps[i].id != ps[j].id
  }

  predicate Listed(ps: seq<BuiltinPreset>, id: string) {
    exists i :: 0 <= i < |ps| && ps[i].id == id
  }

  /** One `upsert`; a created row takes the current time as its creation time. */
  function Upsert(rows: map<string, PresetRow>, p: BuiltinPreset, now: int): map<string, PresetRow> {
    if p.id in rows then rows[p.id := rows[p.id].(name := p.name, prompt := p.prompt, isBuiltin := true)]
    else rows[p.id := PresetRow(p.name, p.prompt, true, now)]
  }

  /** The loop over the list, first to last. */
  function UpsertAll(rows: map<string, PresetRow>, ps: seq<BuiltinPreset>, now: int): map<string, PresetRow>
    decreases |ps|
  {
    if |ps| == 0 then rows else UpsertAll(Upsert(rows, ps[0], now), ps[1..], now)
  }

  /** What the seeded rows are: every listed id holds its listed name and
      prompt and is built in, keeping the creation time of an existing row;
      every other row is untouched. */
  ghost predicate SeededFrom(r: map<string, PresetRow>, rows: map<string, PresetRow>, ps: seq<BuiltinPreset>, now: int) {
    && (forall i :: 0 <= i < |ps| ==>
          && ps[i].id in r
          && r[ps[i].id] == PresetRow(ps[i].name, ps[i].prompt, true,
                                      if ps[i].id in rows then rows[ps[i].id].createdAt else now))
    && (forall id :: !Listed(ps, id) ==> (id in r <==> id in rows))
    && (forall id :: !Listed(ps, id) && id in rows ==> r[id] == rows[id])
  }

  lemma ListedInTail(ps: seq<BuiltinPreset>, id: string)
    requires |ps| > 0
    ensures Listed(ps[1..], id) ==> Listed(ps, id)
  {
    if Listed(ps[1..], id) {
      var i :| 0 <= i < |ps| - 1 && ps[1..][i].id == id;
      assert ps[i + 1].id == id;
    }
  }

  lemma FirstNotInTail(ps: seq<BuiltinPreset>)
    requires |ps| > 0 && DistinctIds(ps)
    ensures !Listed(ps[1..], ps[0].id)
  {
    forall j | 0 <= j < |ps| - 1
      ensures ps[1..][j].id != ps[0].id
    {
      assert ps[1..][j] == ps[j + 1];
    }
  }

  lemma {:induction false} UpsertAllSpec(rows: map<string, PresetRow>, ps: seq<BuiltinPreset>, now: int)
    requires DistinctIds(ps)
    ensures SeededFrom(UpsertAll(rows, ps, now), rows, ps, now)
    decreases |ps|
  {
    if |ps| > 0 {
      var first := Upsert(rows, ps[0], now);
      var tail := ps[1..];
      UpsertAllSpec(first, tail, now);
      var r := UpsertAll(rows, ps, now);
      forall id | !Listed(ps, id)
        ensures !Listed(tail, id) && id != ps[0].id
      {
        ListedInTail(ps, id);
        assert ps[0].id != id;
      }
      forall i | 0 <= i < |ps|
        ensures ps[i].id in r
        ensures r[ps[i].id] == PresetRow(ps[i].name, ps[i].prompt, true,
                                         if ps[i].id in rows then rows[ps[i].id].createdAt else now)
      {
        if i == 0 {
          FirstNotInTail(ps);
        } else {
          assert tail[i - 1] == ps[i];
          assert ps[i].id != ps[0].id;
        }
      }
    }
  }

  /** The seed script on the whole database. */
  function SeedDb(db: Db, now: int): Db {
    db.(presets := UpsertAll(db.presets, BuiltinPresets(), now))
  }

  /** After seeding, each of the three built-in ids holds its listed name and
      prompt and is built in; other presets and the transcriptions are untouched. */
  lemma SeedDbSpec(db: Db, now: int)
    ensures var r := SeedDb(db, now).presets;
      && r["builtin-beautify"].name == "Beautify" && r["builtin-beautify"].isBuiltin
      && r["builtin-concise"].name == "Concise" && r["builtin-concise"].isBuiltin
      && r["builtin-formal"].name == "Formal" && r["builtin-formal"].isBuiltin
    ensures forall i :: 0 <= i < |BuiltinPresets()| ==>
      var p := BuiltinPresets()[i];
      p.id in SeedDb(db, now).presets && SeedDb(db, now).presets[p.id].prompt == p.prompt
    ensures forall id :: !Listed(BuiltinPresets(), id) && id in db.presets ==>
      id in SeedDb(db, now).presets && SeedDb(db, now).presets[id] == db.presets[id]
    ensures SeedDb(db, now).transcriptions == db.transcriptions
  {
    UpsertAllSpec(db.presets, BuiltinPresets(), now);
    var ps := BuiltinPresets();
    assert ps[0].id == "builtin-beautify" && ps[1].id == "builtin-concise" && ps[2].id == "builtin-formal";
  }

  /** Upserting a list with distinct ids a second time, at any time, changes
      nothing. */
  lemma UpsertAllIdempotent(rows: map<string, PresetRow>, ps: seq<BuiltinPreset>, now: int, later: int)
    requires DistinctIds(ps)
    ensures UpsertAll(UpsertAll(rows, ps, now), ps, later) == UpsertAll(rows, ps, now)
  {
    var once := UpsertAll(rows, ps, now);
    var twice := UpsertAll(once, ps, later);
    UpsertAllSpec(rows, ps, now);
    UpsertAllSpec(once, ps, later);
    assert twice.Keys == once.Keys by {
      forall id ensures id in twice <==> id in once {
        if Listed(ps, id) {
          var i :| 0 <= i < |ps| && ps[i].id == id;
        }
      }
    }
    forall id | id in once
      ensures twice[id] == once[id]
    {
      if Listed(ps, id) {
        var i :| 0 <= i < |ps| && ps[i].id == id;
      }
    }
  }

  /** Seeding twice, at any two times, gives the store of seeding once. */
  lemma SeedIdempotent(db: Db, now: int, later: int)
    ensures SeedDb(SeedDb(db, now), later) == SeedDb(db, now)
  {
    UpsertAllIdempotent(db.presets, BuiltinPresets(), now, later);
  }
}

=== FILE: seqs.dfy ===
/** Order-preserving list operations: `Array.prototype.filter` and the
    concatenation of a list of byte chunks. */
module Seqs {

  /** `xs.filter(p)`. */
  function Filter<T>(xs: seq<T>, p: T -> bool): (r: seq<T>)
    ensures |r| <= |xs|
    ensures forall i :: 0 <= i < |r| ==> p(r[i])
  {
    if |xs| == 0 then []
    else if p(xs[0]) then [xs[0]] + Filter(xs[1..], p)
    else Filter(xs[1..], p)
  }

  /** `a` is `b` with some elements left out, the rest kept in order. */
  ghost predicate IsSubseq<T>(a: seq<T>, b: seq<T>)
    decreases |b|
  {
    if |a| == 0 then true
    else if |b| == 0 then false
    else (a[0] == b[0] && IsSubseq(a[1..], b[1..])) || IsSubseq(a, b[1..])
  }

  /** Every sequence is a subsequence of itself. */
  lemma {:induction false} SubseqRefl<T>(xs: seq<T>)
    ensures IsSubseq(xs, xs)
  {
    if |xs| > 0 {
      SubseqRefl(xs[1..]);
    }
  }

  /** Filtering neither adds, duplicates nor reorders: each element is kept
      as often as it occurs when it satisfies `p`, and dropped otherwise. */
  lemma {:induction false} FilterCounts<T>(xs: seq<T>, p: T -> bool, x: T)
    ensures multiset(Filter(xs, p))[x] == if p(x) then multiset(xs)[x] else 0
  {
    if |xs| > 0 {
      FilterCounts(xs[1..], p, x);
      assert xs == [xs[0]] + xs[1..];
      assert multiset(xs) == multiset{xs[0]} + multiset(xs[1..]);
    }
  }

  /** Filtering keeps the surviving elements in their original order. */
  lemma {:induction false} FilterIsSubseq<T>(xs: seq<T>, p: T -> bool)
    ensures IsSubseq(Filter(xs, p), xs)
  {
    if |xs| > 0 {
      FilterIsSubseq(xs[1..], p);
      var r := Filter(xs, p);
      if p(xs[0]) {
        assert r[0] == xs[0] && r[1..] == Filter(xs[1..], p);
      } else if |r| > 0 {
        assert IsSubseq(r, xs[1..]);
      }
    }
  }

  /** When every element satisfies `p`, filtering returns the list itself. */
  lemma {:induction false} FilterKeepsAll<T>(xs: seq<T>, p: T -> bool)
    requires forall i :: 0 <= i < |xs| ==> p(xs[i])
    ensures Filter(xs, p) == xs
  {
    if |xs| > 0 {
      FilterKeepsAll(xs[1..], p);
      assert [xs[0]] + xs[1..] == xs;
    }
  }

  /** Filtering `xs + [x]` filters `xs` and then considers `x`. */
  lemma {:induction false} FilterSnoc<T>(xs: seq<T>, x: T, p: T -> bool)
    ensures Filter(xs + [x], p) == Filter(xs, p) + (if p(x) then [x] else [])
  {
    if |xs| == 0 {
      assert xs + [x] == [x];
      assert [x][1..] == [];
    } else {
      assert (xs + [x])[1..] == xs[1..] + [x];
      FilterSnoc(xs[1..], x, p);
    }
  }

  /** The concatenation of all chunks, first to last. */
  function Flatten<T>(chunks: seq<seq<T>>): seq<T> {
    if |chunks| == 0 then [] else chunks[0] + Flatten(chunks[1..])
  }

  /** Appending a chunk appends its elements. */
  lemma {:induction false} FlattenSnoc<T>(chunks: seq<seq<T>>, c: seq<T>)
    ensures Flatten(chunks + [c]) == Flatten(chunks) + c
  {
    if |chunks| == 0 {
      assert chunks + [c] == [c];
      assert [c][1..] == [];
    } else {
      assert (chunks + [c])[1..] == chunks[1..] + [c];
      FlattenSnoc(chunks[1..], c);
    }
  }

  predicate NonEmpty<T>(c: seq<T>) {
    |c| > 0
  }

  /** Leaving out empty chunks does not change the concatenated data. */
  lemma {:induction false} DropEmptyChunks<T>(chunks: seq<seq<T>>)
    ensures Flatten(Filter(chunks, NonEmpty)) == Flatten(chunks)
  {
    if |chunks| > 0 {
      DropEmptyChunks(chunks[1..]);
      if !NonEmpty(chunks[0]) {
        assert chunks[0] + Flatten(chunks[1..]) == Flatten(chunks[1..]);
      }
    }
  }
}

=== FILE: server.dfy ===
/** The backend's `POST /transcribe` handler as a function of the request body
    and of what the speech model answers when it is asked. The model is an
    oracle: its answer is an input, and the list of audio arrays the handler
    passed to it is part of the result. */
module Server {
  import opened Common
  import opened Wire

  /** The request body: unreadable JSON (parsing throws) or an object whose
      `audio` field is absent or an array of numbers. */
  datatype RequestBody = Unreadable(thrown: Thrown) | Json(audio: Option<seq<int>>)

  /** What the model answers when invoked: recognised text, or a throw. */
  datatype ModelResult = Recognised(text: string) | ModelThrew(thrown: Thrown)

  datatype Handled = Handled(reply: Reply, modelCalls: seq<seq<int>>)

  const NoAudioMessage: string := "No audio data provided"
  const FailureMessage: string := "Transcription failed"

  /** Missing or empty audio is rejected before the model runs. */
  predicate HasAudio(body: RequestBody) {
    body.Json? && body.audio.Some? && |body.audio.value| > 0
  }

  function HandleTranscribe(body: RequestBody, answer: ModelResult): (h: Handled)
    ensures body.Json? && !HasAudio(body) ==>
      h.reply == Reply(StatusBadRequest, Problem(NoAudioMessage)) && h.modelCalls == []
    ensures HasAudio(body) ==> h.modelCalls == [body.audio.value]
    ensures HasAudio(body) && answer.Recognised? ==>
      h.reply == Reply(StatusOk, Transcript(answer.text, |body.audio.value|))
    ensures HasAudio(body) && answer.ModelThrew? ==>
      h.reply == Reply(StatusInternalError, Problem(MessageOr(answer.thrown, FailureMessage)))
    ensures body.Unreadable? ==>
      h.reply == Reply(StatusInternalError, Problem(MessageOr(body.thrown, FailureMessage))) && h.modelCalls == []
  {
    match body
    case Unreadable(thrown) =>
      Handled(Reply(StatusInternalError, Problem(MessageOr(thrown, FailureMessage))), [])
    case Json(audio) =>
      if audio.None? || |audio.value| == 0 then
        Handled(Reply(StatusBadRequest, Problem(NoAudioMessage)), [])
      else
        match answer
        case Recognised(text) => Handled(Reply(StatusOk, Transcript(text, |audio.value|)), [audio.value])
        case ModelThrew(thrown) =>
          Handled(Reply(StatusInternalError, Problem(MessageOr(thrown, FailureMessage))), [audio.value])
  }

  /** Every reply has one of three shapes: 200 with text and length, 400 or
      500 with an error; the model runs at most once, and only for a success
      or a 500. */
  lemma ReplyShapes(body: RequestBody, answer: ModelResult)
    ensures var h := HandleTranscribe(body, answer);
      || (h.reply.status == StatusOk && h.reply.body.Transcript? && |h.modelCalls| == 1)
      || (h.reply.status == StatusBadRequest && h.reply.body.Problem? && h.modelCalls == [])
      || (h.reply.status == StatusInternalError && h.reply.body.Problem? && |h.modelCalls| <= 1)
    ensures var h := HandleTranscribe(body, answer);
      h.reply.body.Transcript? <==> IsOk(h.reply.status)
  {
  }
}

=== FILE: store.dfy ===
/** The main process's `db:*` IPC handlers over an in-memory database: one
    map per table, keyed by id. Ids and creation times, which the database
    generates, are inputs; an operation the database rejects (a missing row, a
    duplicate id) yields `None` and leaves the store as it was. */
module Store {
  import opened Common
  import opened Entities

  datatype PresetRow = PresetRow(name: string, prompt: string, isBuiltin: bool, createdAt: int)

  datatype TranscriptionRow = TranscriptionRow(text: string, timestamp: int, duration: Option<int>)

  datatype Db = Db(transcriptions: map<string, TranscriptionRow>, presets: map<string, PresetRow>)

  /** A transcription as returned to the renderer (the timestamp stays an
      instant; its ISO-8601 rendering is not modelled). */
  datatype TranscriptionOut = TranscriptionOut(id: string, text: string, timestamp: int, duration: Option<int>)

  function AsPreset(id: string, row: PresetRow): Preset {
    Preset(id, row.name, row.prompt, row.isBuiltin)
  }

  function AsTranscription(id: string, row: TranscriptionRow): TranscriptionOut {
    TranscriptionOut(id, row.text, row.timestamp, row.duration)
  }

  /** A non-empty finite set of keys has one of least rank. */
  lemma {:induction false} LeastExists<K, V>(s: set<K>, m: map<K, V>, rank: V -> int)
    requires s != {} && s <= m.Keys
    ensures exists k :: k in s && forall k' :: k' in s ==> rank(m[k]) <= rank(m[k'])
    decreases s
  {
    var x :| x in s;
    if s != {x} {
      LeastExists(s - {x}, m, rank);
      var y :| y in s - {x} && forall k' :: k' in s - {x} ==> rank(m[y]) <= rank(m[k']);
      if rank(m[x]) < rank(m[y]) {
        assert forall k' :: k' in s ==> rank(m[x]) <= rank(m[k']);
      } else {
        assert forall k' :: k' in s ==> rank(m[y]) <= rank(m[k']);
      }
    } else {
      assert forall k' :: k' in s ==> k' == x;
    }
  }

  /** The keys of `m`, each once, in ascending order of rank (the query's
      `orderBy`). Rows of equal rank come in an unspecified order. */
  method OrderKeys<K, V>(m: map<K, V>, rank: V -> int) returns (ks: seq<K>)
    ensures |ks| == |m|
    ensures forall i :: 0 <= i < |ks| ==> ks[i] in m
    ensures forall k :: k in m ==> k in ks
    ensures forall i, j :: 0 <= i < j < |ks| ==> ks[i] != ks[j]
    ensures forall i, j :: 0 <= i < j < |ks| ==> rank(m[ks[i]]) <= rank(m[ks[j]])
  {
    ks := [];
    var rest := m.Keys;
    while rest != {}
      invariant rest <= m.Keys
      invariant |ks| + |rest| == |m.Keys|
      invariant forall i :: 0 <= i < |ks| ==> ks[i] in m && ks[i] !in rest
      invariant forall k :: k in m ==> k in rest || k in ks
      invariant forall i, j :: 0 <= i < j < |ks| ==> ks[i] != ks[j]
      invariant forall i, j :: 0 <= i < j < |ks| ==> rank(m[ks[i]]) <= rank(m[ks[j]])
      invariant forall i, k :: 0 <= i < |ks| && k in rest ==> rank(m[ks[i]]) <= rank(m[k])
      decreases rest
    {
      LeastExists(rest, m, rank);
      var k :| k in rest && forall k' :: k' in rest ==> rank(m[k]) <= rank(m[k']);
      ks := ks + [k];
      rest := rest - {k};
    }
  }

  function OldestFirst(row: PresetRow): int {
    row.createdAt
  }

  function NewestFirst(row: TranscriptionRow): int {
    -row.timestamp
  }

  /** `db:getTranscriptions`: every stored transcription once, newest first,
      with id, text and duration copied unchanged. */
  method GetTranscriptions(db: Db) returns (out: seq<TranscriptionOut>)
    ensures |out| == |db.transcriptions|
    ensures forall i :: 0 <= i < |out| ==>
      out[i].id in db.transcriptions && out[i] == AsTranscription(out[i].id, db.transcriptions[out[i].id])
    ensures forall id :: id in db.transcriptions ==> exists i :: 0 <= i < |out| && out[i].id == id
    ensures forall i, j :: 0 <= i < j < |out| ==> out[i].id != out[j].id
    ensures forall i, j :: 0 <= i < j < |out| ==> out[i].timestamp >= out[j].timestamp
  {
    var ks := OrderKeys(db.transcriptions, NewestFirst);
    out := seq(|ks|, i requires 0 <= i < |ks| => AsTranscription(ks[i], db.transcriptions[ks[i]]));
    assert forall i :: 0 <= i < |out| ==> out[i].id == ks[i];
    forall id | id in db.transcriptions
      ensures exists i :: 0 <= i < |out| && out[i].id == id
    {
      var i :| 0 <= i < |ks| && ks[i] == id;
      assert out[i].id == id;
    }
  }

  /** `db:getPresets`: every stored preset once, oldest first. */
  method GetPresets(db: Db) returns (out: seq<Preset>)
    ensures |out| == |db.presets|
    ensures forall i :: 0 <= i < |out| ==>
      out[i].id in db.presets && out[i] == AsPreset(out[i].id, db.presets[out[i].id])
    ensures forall id :: id in db.presets ==> exists i :: 0 <= i < |out| && out[i].id == id
    ensures forall i, j :: 0 <= i < j < |out| ==> out[i].id != out[j].id
    ensures forall i, j :: 0 <= i < j < |out| ==>
      db.presets[out[i].id].createdAt <= db.presets[out[j].id].createdAt
  {
    var ks := OrderKeys(db.presets, OldestFirst);
    out := seq(|ks|, i requires 0 <= i < |ks| => AsPreset(ks[i], db.presets[ks[i]]));
    assert forall i :: 0 <= i < |out| ==> out[i].id == ks[i];
    forall id | id in db.presets
      ensures exists i :: 0 <= i < |out| && out[i].id == id
    {
      var i :| 0 <= i < |ks| && ks[i] == id;
      assert out[i].id == id;
    }
  }

  /** `db:createTranscription`: an absent duration is stored as null; the
      stored record is echoed back. */
  function CreateTranscription(db: Db, text: string, duration: Option<int>, id: string, now: int)
    : (res: Option<(Db, TranscriptionOut)>)
    ensures res.None? <==> id in db.transcriptions
    ensures res.Some? ==>
      && res.value.0.transcriptions.Keys == db.transcriptions.Keys + {id}
      && res.value.0.transcriptions[id] == TranscriptionRow(text, now, duration)
      && res.value.1 == TranscriptionOut(id, text, now, duration)
      && res.value.0.presets == db.presets
      && forall k :: k in db.transcriptions ==> res.value.0.transcriptions[k] == db.transcriptions[k]
  {
    if id in db.transcriptions then None
    else
      var row := TranscriptionRow(text, now, duration);
      Some((db.(transcriptions := db.transcriptions[id := row]), AsTranscription(id, row)))
  }

  /** `db:deleteTranscription`: removes the row; a missing id is rejected. */
  function DeleteTranscription(db: Db, id: string): (res: Option<Db>)
    ensures res.None? <==> id !in db.transcriptions
    ensures res.Some? ==> res.value.transcriptions.Keys == db.transcriptions.Keys - {id}
    ensures res.Some? ==> res.value.presets == db.presets
    ensures res.Some? ==> forall k :: k in res.value.transcriptions ==> res.value.transcriptions[k] == db.transcriptions[k]
  {
    if id in db.transcriptions then Some(db.(transcriptions := db.transcriptions - {id})) else None
  }

  /** The ids of the built-in presets. */
  function BuiltinIds(db: Db): set<string> {
    set id | id in db.presets && db.presets[id].isBuiltin
  }

  /** `db:createPreset`: whatever the caller sends, the new preset is not built in. */
  function CreatePreset(db: Db, input: PresetInput, id: string, now: int): (res: Option<(Db, Preset)>)
    ensures res.None? <==> id in db.presets
    ensures res.Some? ==>
      && res.value.0.presets.Keys == db.presets.Keys + {id}
      && res.value.0.presets[id] == PresetRow(input.name, input.prompt, false, now)
      && res.value.1 == Preset(id, input.name, input.prompt, false)
      && res.value.0.transcriptions == db.transcriptions
      && BuiltinIds(res.value.0) == BuiltinIds(db)
      && forall k :: k in db.presets ==> res.value.0.presets[k] == db.presets[k]
  {
    if id in db.presets then None
    else
      var row := PresetRow(input.name, input.prompt, false, now);
      Some((db.(presets := db.presets[id := row]), AsPreset(id, row)))
  }

  /** `db:updatePreset`: only name and prompt change; id, built-in flag and
      creation time are kept. A missing id is rejected. */
  function UpdatePreset(db: Db, id: string, input: PresetInput): (res: Option<(Db, Preset)>)
    ensures res.None? <==> id !in db.presets
    ensures res.Some? ==>
      && res.value.0.presets.Keys == db.presets.Keys
      && res.value.0.presets[id] == db.presets[id].(name := input.name, prompt := input.prompt)
      && res.value.1 == Preset(id, input.name, input.prompt, db.presets[id].isBuiltin)
      && res.value.0.transcriptions == db.transcriptions
      && BuiltinIds(res.value.0) == BuiltinIds(db)
      && forall k :: k in db.presets && k != id ==> res.value.0.presets[k] == db.presets[k]
  {
    if id !in db.presets then None
    else
      var row := db.presets[id].(name := input.name, prompt := input.prompt);
      var db' := db.(presets := db.presets[id := row]);
      assert BuiltinIds(db') == BuiltinIds(db) by {
        forall k ensures k in BuiltinIds(db') <==> k in BuiltinIds(db) {
          if k == id {
            assert db'.presets[k].isBuiltin == db.presets[k].isBuiltin;
          }
        }
      }
      Some((db', AsPreset(id, row)))
  }

  /** `db:deletePreset`: removes the preset only when it exists and is not
      built in; otherwise nothing changes, and it never fails. */
  function DeletePreset(db: Db, id: string): (db': Db)
    ensures id in db.presets && !db.presets[id].isBuiltin ==> db'.presets.Keys == db.presets.Keys - {id}
    ensures !(id in db.presets && !db.presets[id].isBuiltin) ==> db' == db
    ensures forall k :: k in db'.presets ==> k in db.presets && db'.presets[k] == db.presets[k]
    ensures BuiltinIds(db') == BuiltinIds(db)
    ensures db'.transcriptions == db.transcriptions
  {
    if id in db.presets && !db.presets[id].isBuiltin then db.(presets := db.presets - {id}) else db
  }

  datatype PresetOp =
    | CreateOp(input: PresetInput, id: string, now: int)
    | UpdateOp(id: string, input: PresetInput)
    | DeleteOp(id: string)

  /** One preset handler; a rejected call leaves the store unchanged. */
  function ApplyPresetOp(db: Db, op: PresetOp): Db {
    match op
    case CreateOp(input, id, now) =>
      (match CreatePreset(db, input, id, now) case Some(r) => r.0 case None => db)
    case UpdateOp(id, input) =>
      (match UpdatePreset(db, id, input) case Some(r) => r.0 case None => db)
    case DeleteOp(id) => DeletePreset(db, id)
  }

  function ApplyPresetOps(db: Db, ops: seq<PresetOp>): Db
    decreases |ops|
  {
    if |ops| == 0 then db else ApplyPresetOps(ApplyPresetOp(db, ops[0]), ops[1..])
  }

  /** No sequence of preset calls adds, removes or demotes a built-in preset. */
  lemma {:induction false} BuiltinsPermanent(db: Db, ops: seq<PresetOp>)
    ensures BuiltinIds(ApplyPresetOps(db, ops)) == BuiltinIds(db)
    decreases |ops|
  {
    if |ops| > 0 {
      BuiltinsPermanent(ApplyPresetOp(db, ops[0]), ops[1..]);
    }
  }
}

=== FILE: text.dfy ===
/** String helpers the user interface relies on: `trim`, `toLowerCase`,
    `includes`, the `slice(0, n) + '...'` truncation and decimal rendering of
    numbers. Strings are sequences of characters. */
module Text {

  /** The characters `String.prototype.trim` removes: the ECMAScript WhiteSpace
      and LineTerminator code points. */
  predicate IsSpace(c: char) {
    var n := c as int;
    || n == 0x09 || n == 0x0A || n == 0x0B || n == 0x0C || n == 0x0D || n == 0x20
    || n == 0xA0 || n == 0x1680 || (0x2000 <= n <= 0x200A) || n == 0x2028 || n == 0x2029
    || n == 0x202F || n == 0x205F || n == 0x3000 || n == 0xFEFF
  }

  /** Every character of `s` is white space (the empty string included). */
  predicate Blank(s: string) {
    forall i :: 0 <= i < |s| ==> IsSpace(s[i])
  }

  /** `s` neither starts nor ends with white space. */
  predicate Trimmed(s: string) {
    |s| == 0 || (!IsSpace(s[0]) && !IsSpace(s[|s| - 1]))
  }

  /** Number of leading white-space characters of `s`. */
  function LeadingSpace(s: string): (n: nat)
    ensures n <= |s|
    ensures Blank(s[..n])
    ensures n < |s| ==> !IsSpace(s[n])
  {
    if |s| > 0 && IsSpace(s[0]) then
      var k := LeadingSpace(s[1..]);
      assert s[1..][..k] == s[1..k + 1];
      1 + k
    else 0
  }

  /** Number of trailing white-space characters of `s`. */
  function TrailingSpace(s: string): (n: nat)
    ensures n <= |s|
    ensures Blank(s[|s| - n..])
    ensures n < |s| ==> !IsSpace(s[|s| - n - 1])
  {
    if |s| > 0 && IsSpace(s[|s| - 1]) then
      var k := TrailingSpace(s[..|s| - 1]);
      assert s[..|s| - 1][|s| - 1 - k..] == s[|s| - 1 - k..|s| - 1];
      1 + k
    else 0
  }

  /** `String.prototype.trim`: the result is the slice of `s` left once the
      white space at both ends is removed. */
  function Trim(s: string): (r: string)
    ensures Trimmed(r)
    ensures exists i, j :: 0 <= i <= j <= |s| && r == s[i..j] && Blank(s[..i]) && Blank(s[j..])
  {
    var i := LeadingSpace(s);
    var rest := s[i..];
    var k := TrailingSpace(rest);
    var j := |s| - k;
    assert rest[|rest| - k..] == s[j..];
    assert rest[..|rest| - k] == s[i..j];
    if i == |s| then
      assert s[i..j] == [];
      s[i..j]
    else
      assert rest[0..][0] == rest[0];
      s[i..j]
  }

  /** Trimming removes nothing more from an already trimmed string. */
  lemma TrimmedIsFixed(s: string)
    requires Trimmed(s)
    ensures Trim(s) == s
  {
    assert LeadingSpace(s) == 0;
    assert s[0..] == s;
    assert TrailingSpace(s) == 0;
  }

  /** Trimming twice is trimming once. */
  lemma TrimIdempotent(s: string)
    ensures Trim(Trim(s)) == Trim(s)
  {
    TrimmedIsFixed(Trim(s));
  }

  /** A string trims to the empty string exactly when it is all white space;
      this is the `!s.trim()` test used by the search box and the preset form. */
  lemma TrimEmptyIffBlank(s: string)
    ensures Trim(s) == [] <==> Blank(s)
  {
    var a, b :| 0 <= a <= b <= |s| && Trim(s) == s[a..b] && Blank(s[..a]) && Blank(s[b..]);
    if |Trim(s)| > 0 {
      assert Trim(s)[0] == s[a];
    } else {
      forall k | 0 <= k < |s|
        ensures IsSpace(s[k])
      {
        if k < a {
          assert s[..a][k] == s[k];
        } else {
          assert s[b..][k - b] == s[k];
        }
      }
    }
  }

  /** ASCII upper-case letters fold to lower case; other characters are kept. */
  function LowerChar(c: char): (r: char)
    ensures !('A' <= r <= 'Z')
    ensures 'a' <= c <= 'z' ==> r == c
  {
    if 'A' <= c <= 'Z' then (c as int - 'A' as int + 'a' as int) as char else c
  }

  /** `toLowerCase`, character by character. */
  function Lower(s: string): (r: string)
    ensures |r| == |s|
    ensures forall i :: 0 <= i < |s| ==> r[i] == LowerChar(s[i])
  {
    if |s| == 0 then [] else [LowerChar(s[0])] + Lower(s[1..])
  }

  /** `needle` occurs in `hay` starting at index `i`. */
  predicate OccursAt(hay: string, needle: string, i: int) {
    0 <= i && i + |needle| <= |hay| && hay[i..i + |needle|] == needle
  }

  /** Reference meaning of `includes`: some position of `hay` starts a copy of `needle`. */
  ghost predicate Occurs(hay: string, needle: string) {
    exists i :: OccursAt(hay, needle, i)
  }

  /** `String.prototype.includes`, scanning left to right. The empty needle
      occurs in every string. */
  function Contains(hay: string, needle: string): bool
    decreases |hay|
  {
    if |needle| > |hay| then false
    else if hay[..|needle|] == needle then true
    else Contains(hay[1..], needle)
  }

  /** The scan finds `needle` exactly when it occurs somewhere in `hay`. */
  lemma {:induction false} ContainsIffOccurs(hay: string, needle: string)
    ensures Contains(hay, needle) <==> Occurs(hay, needle)
    decreases |hay|
  {
    if |needle| > |hay| {
      assert forall i :: !OccursAt(hay, needle, i);
    } else if hay[..|needle|] == needle {
      assert OccursAt(hay, needle, 0);
    } else {
      ContainsIffOccurs(hay[1..], needle);
      if Occurs(hay[1..], needle) {
        var i :| OccursAt(hay[1..], needle, i);
        OccursShift(hay, needle, i);
      }
      if Occurs(hay, needle) {
        var i :| OccursAt(hay, needle, i);
        assert i != 0;
        OccursShift(hay, needle, i - 1);
      }
    }
  }

  /** Dropping the first character shifts every occurrence one to the left. */
  lemma OccursShift(hay: string, needle: string, i: nat)
    requires |hay| > 0
    ensures OccursAt(hay[1..], needle, i) <==> OccursAt(hay, needle, i + 1)
  {
    if i + |needle| <= |hay| - 1 {
      assert hay[1..][i..i + |needle|] == hay[i + 1..i + 1 + |needle|];
    }
  }

  /** The `text.length > limit ? text.slice(0, limit) + '...' : text` pattern. */
  function Truncate(s: string, limit: nat): string {
    if |s| > limit then s[..limit] + "..." else s
  }

  /** What a truncated text looks like: short texts are kept whole, longer ones
      keep their first `limit` characters and gain a three-dot ellipsis. */
  lemma TruncateShape(s: string, limit: nat)
    ensures |s| <= limit ==> Truncate(s, limit) == s
    ensures |s| > limit ==> |Truncate(s, limit)| == limit + 3
    ensures |s| > limit ==> Truncate(s, limit)[..limit] == s[..limit]
    ensures |s| > limit ==> Truncate(s, limit)[limit..] == "..."
    ensures |Truncate(s, limit)| <= limit + 3
  {
  }

  /** Truncating a truncated text changes nothing. */
  lemma TruncateIdempotent(s: string, limit: nat)
    ensures Truncate(Truncate(s, limit), limit) == Truncate(s, limit)
  {
    if |s| > limit {
      var t := s[..limit] + "...";
      assert t[..limit] == s[..limit];
    }
  }

  /** Decimal digit characters. */
  predicate IsDigit(c: char) {
    '0' <= c <= '9'
  }

  predicate AllDigits(s: string) {
    forall i :: 0 <= i < |s| ==> IsDigit(s[i])
  }

  function DigitChar(d: nat): (c: char)
    requires d < 10
    ensures IsDigit(c)
  {
    ('0' as int + d) as char
  }

  /** The decimal rendering of a natural number, without leading zeros (what
      a template literal produces for a non-negative integer). */
  function Decimal(n: nat): (s: string)
    ensures |s| >= 1
    ensures AllDigits(s)
    ensures n >= 10 ==> s[0] != '0'
    ensures n < 10 ==> |s| == 1
    ensures 10 <= n < 100 ==> |s| == 2
  {
    if n < 10 then [DigitChar(n)] else Decimal(n / 10) + [DigitChar(n % 10)]
  }

  /** The number a string of decimal digits denotes. */
  function DecimalValue(s: string): nat
    requires AllDigits(s)
  {
    if |s| == 0 then 0
    else DecimalValue(s[..|s| - 1]) * 10 + (s[|s| - 1] as int - '0' as int)
  }

  /** Reading back a rendered number gives the number. */
  lemma {:induction false} DecimalRoundTrip(n: nat)
    ensures DecimalValue(Decimal(n)) == n
  {
    if n >= 10 {
      DecimalRoundTrip(n / 10);
      var s := Decimal(n);
      assert s[..|s| - 1] == Decimal(n / 10);
    }
  }
}

=== FILE: wire.dfy ===
/** The `POST /transcribe` exchange between the desktop client and the
    backend: the JSON reply shapes and the status codes used. */
module Wire {

  /** "200 OK". */
  const StatusOk: int := 200
  /** "400 Bad Request" (section 15.5.1 of RFC 9110). */
  const StatusBadRequest: int := 400
  /** "500 Internal Server Error" (section 15.6.1 of RFC 9110). */
  const StatusInternalError: int := 500

  /** `{text, byteLength}` on success, `{error}` otherwise. */
  datatype ReplyBody = Transcript(text: string, byteLength: nat) | Problem(error: string)

  datatype Reply = Reply(status: int, body: ReplyBody)

  /** `response.ok`: a 2xx status. */
  predicate IsOk(status: int) {
    200 <= status <= 299
  }
}
